=== FILE: README.md ===
# sweatier-server core, modelled in Dafny

sweatier-server is the back end of a sports match-making service. Users sign up by e-mail or through an
external account and create a profile. A host creates a match (sport, tier, capability, gender, place,
day). Other users join or leave it, and after the game participants rate each other from 1 to 5. Once a
day, the ratings are turned into a tier per user and sport: the top tenth of a sport's ranked users are
master, then pro, semi-pro and amateur. New users start at beginner in every sport.

This project models that core and proves what it promises:

| file | module | what it models |
|---|---|---|
| `errors.dfy` | `Errors` | the error-code table (status and message of each code) and the framework exceptions the match code throws |
| `domain.dfy` | `Domain` | the shared records: match, rating, profile, user, tier key |
| `match_dto.dfy` | `MatchDto` | the validation rules of the match request bodies |
| `user_dto.dfy` | `UserDto` | the validation rules of the user request bodies, including the password pattern |
| `dates.dfy` | `DateMiddleware` | the KST/UTC converters and the recursive date rewrite of a query result |
| `storage.dfy` | `Storage` | the file-extension helper of the storage service |
| `seed.dfy` | `Seed` | the reference-data seed, as upserts on a class holding the sports and tier tables |
| `matches.dfy` | `Matches` | the match service: a class holding the match table and the rating ledger |
| `matches_controller.dfy` | `MatchesController` | the guards the match endpoints add, and the rating loop |
| `users.dfy` | `Users` | the user service: a class holding the user and profile tables, validators and selectors |
| `tiers.dfy` | `TierRanking` | the daily tier computation: score analysis, buckets, position-to-tier map, tier swap |

Code that changes tables step by step is a class with `modifies` clauses:
- `Seed.ReferenceTables`;
- `Matches.MatchRegistry`;
- `Users.UserStore`, which the tier run also updates.

Each of its methods is tied to a pure function of the old state, and lemmas prove the function's
properties. Pure code (validators, converters, the analysis and the tier map) is functions and lemmas.

A failure is one of:
- the service's own error code (`Service`);
- a framework exception with its message constant (`Http`);
- `Internal`, for the places where the source dereferences a row it did not check, or where the
  database client refuses a query or a write.

Inputs from the outside world are parameters:
- the clock (`now`, `today`);
- fresh random ids;
- the password hash and compare functions;
- the uploaded image's URL;
- the rows a query returns when their order matters.

## Model

| member | source | states |
|---|---|---|
| Errors.Status | src/common/exceptions/error-codes.ts:11-148 | every error code answers with 400, 401, 403, 404 or 409 |
| Errors.ForbiddenCodes | src/common/exceptions/error-codes.ts:64-76 | rater-not-in-match, tier mismatch, edit forbidden and cancel locked are 403 |
| Errors.NotFoundCodes | src/common/exceptions/error-codes.ts:78-138 | missing match, participant, profile and sport are 404 |
| Errors.ConflictCodes | src/common/exceptions/error-codes.ts:87-148 | self rating, repeated rating, full roster and the four duplicate codes are 409 |
| Errors.ExpiredAndSelfParticipationShareMessage | src/common/exceptions/error-codes.ts:52-59 | two distinct codes share status and message, so only the code identifies the error |
| Errors.StatusOf | src/common/exceptions/service-exception.ts:3-14 | with no filter registered, the framework's default handling answers a service failure with the status its code carries and an HTTP failure with its own; both are client errors, and only an unchecked failure is 500 |
| DateMiddleware.ConvertersRoundTrip | src/database/prisma/date.middleware.ts:1-11 | UTC-to-KST adds nine hours and the two converters undo each other |
| DateMiddleware.AdjustDates | src/database/prisma/date.middleware.ts:13-26 | the in-place walk yields the recursive rewrite: non-objects untouched, every date converted, every nested object visited |
| DateMiddleware.AdjustKeepsShape | src/database/prisma/date.middleware.ts:13-26 | the rewrite changes no key, no non-date value and no nesting |
| DateMiddleware.AdjustConvertsEachDateOnce | src/database/prisma/date.middleware.ts:16-24 | the dates after the rewrite are the dates before it, each converted exactly once, in key order |
| DateMiddleware.AdjustThenInverse | src/database/prisma/date.middleware.ts:13-26 | rewriting with a converter and then with its inverse restores the object |
| DateMiddleware.KstUtcRoundTrip | src/database/prisma/date.middleware.ts:1-26 | converting a result to KST and back to UTC, or the other way round, restores it |
| Storage.Split | src/storage/storage.service.ts:12-14 | there is at least one piece and no piece contains a dot |
| Storage.SplitJoin | src/storage/storage.service.ts:12-14 | joining the pieces with dots gives the name back |
| Storage.GetExt | src/storage/storage.service.ts:12-14 | the extension has no dot and is a suffix of the name, preceded by a dot unless it is the whole name |
| Storage.NoDotGivesWholeName | src/storage/storage.service.ts:12-14 | a name without a dot is its own extension |
| Storage.TrailingDotGivesEmpty | src/storage/storage.service.ts:12-14 | a name ending in a dot has the empty extension |
| Storage.DotSplitsNameAroundExt | src/storage/storage.service.ts:12-14 | a name with a dot is some prefix, a dot, then the extension |
| MatchDto.UpdateAcceptsEmptyAndCreate | src/domains/matches/matches.dto.ts:72-118 | the empty update body is valid, and every valid create body is a valid update body |
| MatchDto.UpdateBoundsAreCreateBounds | src/domains/matches/matches.dto.ts:28-118 | a create body whose update form is valid and has every field is a valid create body |
| MatchDto.ToFields | src/domains/matches/matches.dto.ts:28-70 | a valid body gives a match with capability at least 2, a known gender, and the body's sport and day |
| MatchDto.CapabilityBelowTwoRejected | src/domains/matches/matches.dto.ts:40-42 | capability 1 or 0 fails validation |
| MatchDto.UnknownGenderRejected | src/domains/matches/matches.dto.ts:37-38 | a gender outside male/female/both fails validation |
| MatchDto.RateOutOfRangeRejected | src/domains/matches/matches.dto.ts:128-130 | a rating of 0 or 6 fails validation |
| UserDto.SignInHasNoLengthMinimum | src/domains/users/users.dto.ts:39-56 | sign-in checks the pattern but not the length: a 3-character password passes sign-in and fails sign-up |
| UserDto.AcceptedPasswordExample | src/domains/users/spec/users.dto.spec.ts:12-23 | `!Rh123123312321` is a valid sign-up password |
| UserDto.RejectedPasswordExample | src/domains/users/users.dto.spec.ts:15-26 | `!h123123312321` is long enough but fails the pattern (no capital) |
| UserDto.ShortDigitsPasswordExample | src/domains/users/spec/users.dto.spec.ts:35-45 | `12312` fails both the length and the pattern |
| UserDto.EditAcceptsEmptyAndCreate | src/domains/users/users.dto.ts:58-113 | the empty edit body is valid, and every valid create-profile body is a valid edit body |
| UserDto.EditBoundsMatchCreateExceptNickname | src/domains/users/users.dto.ts:74-108 | create and edit agree on every bound except the nickname, whose 2-character minimum exists only at creation |
| UserDto.EditRejectionExamples | src/domains/users/spec/users.dto.spec.ts:181-222 | an unknown gender, a 5-digit phone, a 1-letter bank and a 3-digit account each fail the edit body |
| Seed.TierValuesAreTheFiveInOrder | src/database/prisma/prisma.seed.ts:16-38 | the seed lists the five tier values once each, from beginner to master, by their database names |
| Seed.ReferenceTables.UpsertSport | src/database/prisma/prisma.seed.ts:43-47 | an existing name leaves the table alone; a new one is appended with the next id; names stay unique |
| Seed.ReferenceTables.SportTypeSeedAsWritten | src/database/prisma/prisma.seed.ts:40-50 | as written, the callbacks hand back no query, so no upsert is sent; the method may not modify the tables, so they stay as they were |
| Seed.ReferenceTables.SportTypeSeed | src/database/prisma/prisma.seed.ts:40-50 | with each upsert awaited, afterwards all five sports exist, existing rows are kept, and every added row is one of the five names, so exactly the missing sports are added |
| Seed.ReferenceTables.UpsertTier | src/database/prisma/prisma.seed.ts:57-71 | an existing (value, sport) row is kept; a missing one is added with its description; the key stays unique |
| Seed.ReferenceTables.TierSeed | src/database/prisma/prisma.seed.ts:52-76 | afterwards every sport has all five tiers; existing rows are never modified; every added row is a seeded value with its description for a sport of the table; on a complete table nothing changes, so a second run leaves the first run's table |
| Matches.Without | src/domains/matches/matches.service.ts:119-135 | leaving removes exactly that user, keeps the rest in order, shrinks the roster by one and keeps it repeat-free |
| Matches.Toggle | src/domains/matches/matches.service.ts:99-175 | a participant leaves unless the roster is at 80% of capability; anyone else joins after the profile, host, capacity and gender checks, in that order, each with its exception |
| Matches.ToggleKeepsRosterInvariants | src/domains/matches/matches.service.ts:111-175 | a successful toggle keeps the roster within capability and free of repeats |
| Matches.ToggleChangesOnlyThatUser | src/domains/matches/matches.service.ts:111-175 | a toggle changes the roster by exactly the one user, by one in size |
| Matches.JoinThenLeaveRestores | src/domains/matches/matches.service.ts:115-174 | after a join, leaving is allowed exactly when the new roster is below 80%, and then restores the match |
| Matches.HostCannotJoin | src/domains/matches/matches.service.ts:142-144 | the host's own application is always refused as invalid |
| Matches.Patched | src/domains/matches/matches.service.ts:75-78 | the declared fields the body carries are overwritten and the rest kept; the empty body changes nothing |
| Matches.PatchIdempotent | src/domains/matches/matches.service.ts:75-78 | applying the same edit twice is applying it once |
| Matches.EditCanShrinkCapabilityBelowRoster | src/domains/matches/matches.service.ts:65-79 | an edit may set the capability below the current roster size |
| Matches.MatchRegistry.FindMatch | src/domains/matches/matches.service.ts:26-39 | the stored match, or NotFound with the invalid-match message |
| Matches.MatchRegistry.CheckHost | src/domains/matches/matches.service.ts:65-74 | passes exactly for the host of an existing match; NotFound first, then Forbidden |
| Matches.MatchRegistry.CreateMatch | src/domains/matches/matches.service.ts:41-63 | the new match has the fresh id, the caller as host and only participant, and the body's fields |
| Matches.MatchRegistry.EditMatch | src/domains/matches/matches.service.ts:65-79 | only the host edits; the match becomes the patched one and nothing else changes |
| Matches.MatchRegistry.DeleteMatch | src/domains/matches/matches.service.ts:81-97 | only the host deletes; the match is gone and nothing else changes |
| Matches.MatchRegistry.Participate | src/domains/matches/matches.service.ts:99-175 | NotFound for a missing match, otherwise the toggle's outcome, stored only on success |
| Matches.MatchRegistry.RatePlayer | src/domains/matches/matches.service.ts:177-203 | appends one rating with the match's sport and changes nothing else; a missing match is an unchecked failure |
| MatchesController.ApplyMatch | src/domains/matches/matches.controller.ts:127-151 | NotFound, then the host is refused, then applications close at the match day as read, which the store middleware has shifted nine hours later, then the toggle; a roster only changes before nine hours past the stored match day, and never by its host |
| MatchesController.EditMatch | src/domains/matches/matches.controller.ts:92-104 | with the intended (user, match, body) call: only the host of an existing match edits it, with the service's patch |
| MatchesController.DeleteMatch | src/domains/matches/matches.controller.ts:108-123 | with the intended (user, match) call: only the host of an existing match deletes it |
| MatchesController.ServiceHostCheck | src/domains/matches/matches.service.ts:65-91 | the service's lookup and host check on the arguments it is handed: the intended check for two ids, a 500 for a match id that is not a string |
| MatchesController.EditEndpointAsWritten | src/domains/matches/matches.controller.ts:92-104 | as written, the edit endpoint never succeeds: its refusals are the intended ones, and the host of an existing match gets a 500 |
| MatchesController.DeleteEndpointAsWritten | src/domains/matches/matches.controller.ts:106-123 | as written, the delete endpoint never succeeds: its refusals are the intended ones, and the host of an existing match gets a 500 |
| MatchesController.ServiceCreate | src/domains/matches/matches.service.ts:41-63 | the service's create on the host it is handed: the new match for a host id, a 500 when the host is undefined |
| MatchesController.CreateEndpointAsWritten | src/domains/matches/matches.controller.ts:84-88 | as written, every create answers 500 and no match is created |
| MatchesController.RateItemAsWritten | src/domains/matches/matches.controller.ts:170-189 | as written, an item fails as a self-rating, then as a repeated rating in the table the endpoint reads, and otherwise at the score write |
| MatchesController.RateRequestAsWritten | src/domains/matches/matches.controller.ts:153-192 | as written, an undefined constructor argument is a 500; past it, a missing match is NotFound, a non-empty list always fails and no rating is stored |
| MatchesController.RateEndpointAsWritten | src/domains/matches/matches.dto.ts:120-126 | as written, the pipe builds the body with no constructor argument, so every request answers 500 and stores nothing |
| MatchesController.RateStep | src/domains/matches/matches.controller.ts:170-189 | a self-rating is refused, then a repeated (rated, rater, match) triple, else the rating is made |
| MatchesController.Process | src/domains/matches/matches.controller.ts:170-191 | the ledger grows by exactly the created ratings, at most one per item |
| MatchesController.ProcessCreatesOnlyValidRatings | src/domains/matches/matches.controller.ts:170-191 | every created rating is by the rater, for this match and sport, of someone else; all items pass exactly when each created its own rating |
| MatchesController.SelfRatingNeverStored | src/domains/matches/matches.controller.ts:171-173 | a self-rating item makes the request fail and is never stored |
| MatchesController.ProcessKeepsTriplesUnique | src/domains/matches/matches.controller.ts:175-184 | with checks and writes on one ledger, no two ratings in it ever share a (rated, rater, match) triple |
| MatchesController.RateParticipants | src/domains/matches/matches.controller.ts:155-192 | NotFound stores nothing; otherwise the ledger and the answer are those of processing the items in order |
| Users.ValidatePhoneNumber | src/domains/users/users.service.ts:63-69 | fails, with duplicate phone, exactly when a profile has that number |
| Users.ValidateNickname | src/domains/users/users.service.ts:71-77 | fails, with duplicate nickname, exactly when a profile has that nickname |
| Users.ValidateEmail | src/domains/users/users.service.ts:98-104 | fails, with duplicate user, exactly when a user has that e-mail |
| Users.ValidateProfile | src/domains/users/users.service.ts:51-61 | passes exactly when the user has no profile and phone and nickname are free; the failures come in that order |
| Users.ValidateNicknameChange | src/domains/users/users.service.ts:79-96 | the same nickname or no stamp passes; under 30 days since the stamp is refused; after that the new nickname must be free |
| Users.EditedProfile | src/domains/users/users.service.ts:208-226 | a nickname change stamps today + 30 days; otherwise the stamp is kept; the empty edit without image changes nothing |
| Users.EditOutcome | src/domains/users/users.service.ts:191-234 | a missing profile is NotFound; a taken new phone is refused; a success is the edited row and clashes with no other profile |
| Users.OwnPhoneIsNotADuplicate | src/domains/users/users.service.ts:203-206 | resubmitting one's own phone and nickname never fails as a duplicate |
| Users.NicknameCooldownIsSixtyDays | src/domains/users/users.service.ts:209-224 | with the stamp set to change day + 30 and the check at 30 days, another change is refused for 60 days and then allowed |
| Users.AbsentNicknameDuringCooldownIsRefused | src/domains/users/users.service.ts:83-93 | an edit that leaves the nickname out is still refused while the stamp is fresh |
| Users.FirstNicknameChangeToTakenName | src/domains/users/users.service.ts:79-96 | a first nickname change skips the uniqueness check, so a taken name fails only at the unique column |
| Users.EditKeepsProfilesWellFormed | src/domains/users/users.service.ts:191-234 | a successful edit keeps phone numbers and nicknames unique |
| Users.FoundAllExactly | src/domains/users/users.service.ts:237-244 | the lookup finds one row per requested name exactly when every name is a sport and none is repeated |
| Users.BeginnerTiers | src/domains/users/users.service.ts:141-147 | exactly the beginner tier of every sport that has one |
| Users.SeededTablesGiveBeginnerEverywhere | src/domains/users/users.service.ts:140-163 | after the tier seed, a new user gets beginner in every sport |
| Users.EmptySeedGivesNoTiers | src/database/prisma/prisma.seed.ts:52-76 | with no sports, the empty tier table is already complete, and a new user gets no tier at all |
| Users.SignUpOutcome | src/domains/users/users.service.ts:140-166 | the upsert on the sign-up id: a success stores exactly the returned row under that id, a failure stores nothing, and the table stays well formed |
| Users.KakaoSignUpStoresNoEmail | src/domains/users/users.service.ts:149-152 | the external-account body carries the placeholder e-mail, but the new user has neither e-mail nor password, and a second sign-up returns it unchanged |
| Users.LatestMatchBefore | src/domains/users/users.service.ts:278-294 | the user's match with the latest day strictly before now, or none exactly when there is no such match |
| Users.HasUserRated | src/domains/users/users.service.ts:296-306 | true exactly when the ledger has a rating by the user in that match |
| Users.UserMatchRates | src/domains/users/users.service.ts:308-320 | exactly the (score, rater) of every rating the user received in that match |
| Users.UserStore.FindProfileByUserId | src/domains/users/users.service.ts:41-49 | the stored profile, or profile-not-found |
| Users.UserStore.CreateProfile | src/domains/users/users.service.ts:168-189 | the validator's failure, an unchecked failure for an unknown user, or the new profile with no nickname stamp |
| Users.UserStore.EditProfile | src/domains/users/users.service.ts:191-234 | the outcome is the edit outcome on the old table, stored only on success |
| Users.UserStore.FindSports | src/domains/users/users.service.ts:237-241 | exactly the table rows whose name was requested, in table order |
| UserDto.EmptyFavoriteListAccepted | src/domains/users/users.dto.ts:115-119 | the favourite-sports body accepts the empty list and refuses a missing field |
| Users.EmptyFavoriteListFindsNothing | src/domains/users/users.service.ts:236-244 | the empty favourite list is a valid body and finds no sport, so the length check passes and nothing is connected |
| Users.UserStore.EditUserFavorite | src/domains/users/users.service.ts:236-256 | sport-not-found unless every name is found once; on success the found sports are added to the liked ones |
| Users.UserStore.CreateUser | src/domains/users/users.service.ts:140-166 | the answer and the table are the sign-up outcome on the old table: an existing id is returned unchanged; a new user gets the beginner tiers, the hashed password or no credentials, and no liked sports |
| Users.UserStore.FindUsersCredential | src/domains/users/users.service.ts:106-123 | succeeds exactly for a user with that e-mail whose hash matches; otherwise unauthorized; nothing changes |
| TierRanking.GroupsAreSumsAndCounts | src/domains/tiers/tiers.service.ts:153-165 | each sport's group is the sum and count of exactly its ratings; a sport has a group exactly when it was rated |
| TierRanking.ScoreAnalysis | src/domains/tiers/tiers.service.ts:148-178 | a sport is in the analysis exactly when it has at least three ratings, with their exact average |
| TierRanking.AverageWithinBounds | src/domains/tiers/tiers.service.ts:168-175 | a sport's average lies between that sport's own lowest and highest score, whatever the other sports' scores |
| TierRanking.CountsAddUpToRatings | src/domains/tiers/tiers.service.ts:153-165 | the group counts add up to the number of ratings |
| TierRanking.RankBySport | src/domains/tiers/tiers.service.ts:29-67 | every sport of the table has a bucket, holding the users analysed for it in listing order |
| TierRanking.BucketHasNoRepeats | src/domains/tiers/tiers.service.ts:63-67 | with distinct users, a user is in a bucket at most once |
| TierRanking.TierFor | src/domains/tiers/tiers.service.ts:84-88 | a position's tier is never beginner |
| TierRanking.FirstIsMaster | src/domains/tiers/tiers.service.ts:84-88 | the first position of any bucket is master |
| TierRanking.TierMonotone | src/domains/tiers/tiers.service.ts:84-88 | a later position never gets a higher tier |
| TierRanking.TenUsersExample | src/domains/tiers/tiers.service.ts:84-88 | with ten users: positions 0-1 master, 2-3 pro, 4-6 semi-pro, 7-9 amateur |
| TierRanking.AssignmentsAreRanked | src/domains/tiers/tiers.service.ts:80-92 | every assignment is a ranked tier, and the first is master |
| TierRanking.Swapped | src/domains/tiers/tiers.service.ts:113-142 | afterwards the user holds exactly the new tier in that sport and the same tiers elsewhere; one tier per sport is kept |
| TierRanking.SwapTier | src/domains/tiers/tiers.service.ts:98-143 | the one user's tiers become the swapped set; a missing user, which the run never passes, is skipped |
| TierRanking.AfterBucketTiers | src/domains/tiers/tiers.service.ts:95-144 | after a bucket, each user in it holds exactly their position's tier in that sport; the others, and the other sports, are unchanged |
| TierRanking.ApplyBucket | src/domains/tiers/tiers.service.ts:80-144 | pairing the bucket's users with their positions' tiers and swapping them in order gives the table the bucket function describes |
| TierRanking.AfterSportsTiers | src/domains/tiers/tiers.service.ts:95-144 | after all sports, a user's tier in each sport is their position's tier in its bucket, or unchanged if they are not in it |
| TierRanking.AfterSportsKeepsOneTier | src/domains/tiers/tiers.service.ts:113-142 | the run keeps every user at most one tier per sport |
| TierRanking.AnalyseAll | src/domains/tiers/tiers.service.ts:54-60 | every user's analysis, in listing order |
| TierRanking.ApplyBuckets | src/domains/tiers/tiers.service.ts:95-144 | applying the buckets sport by sport gives the table the all-sports function describes |
| TierRanking.FetchTiers | src/domains/tiers/tiers.service.ts:22-145 | the daily run as written: analysis, buckets in listing order, then the swaps |
| TierRanking.FetchTiersOutcome | src/domains/tiers/tiers.service.ts:22-145 | a user in a sport's bucket ends with exactly their position's tier there, never beginner; others keep theirs; only tiers change |
| TierRanking.ListingOrderBeatsAverage | src/domains/tiers/tiers.service.ts:70-77 | as written, a user with average 1.0 listed first is master and one with 5.0 listed second is semi-pro |
| TierRanking.SortByAverage | src/domains/tiers/tiers.service.ts:70-77 | the entries reordered (same multiset) by average, highest first |
| TierRanking.RankedBucketIsBucketReordered | src/domains/tiers/tiers.service.ts:70-77 | ranking by average reorders the bucket: the same users, each once |
| TierRanking.HigherAverageNeverLowerTier | src/domains/tiers/tiers.service.ts:70-92 | by average, a strictly higher average never gets a lower tier |
| TierRanking.TwoUsersByAverage | src/domains/tiers/tiers.service.ts:70-77 | by average, of two users the one with the strictly higher average is placed first |
| TierRanking.AverageOrderExample | src/domains/tiers/tiers.service.ts:70-77 | by average, the two users of the as-written example swap places |
| TierRanking.FetchTiersByAverage | src/domains/tiers/tiers.service.ts:22-145 | the daily run with each bucket ordered by average before the swaps |
| TierRanking.FetchTiersByAverageOutcome | src/domains/tiers/tiers.service.ts:22-145 | two ranked users end with their places' tiers, and the strictly higher average holds a tier at least as high |

## Findings

| source | as written | input that shows it | evidently intended | confidence | as-written member | corrected member |
|---|---|---|---|---|---|---|
| src/domains/tiers/tiers.service.ts:70-77 | each bucket holds user-id strings; the comparator reads their `averageScore`, which is undefined. Every comparison is NaN, which counts as equal, and a stable sort then keeps the listing order. Tiers go by position in the user listing | users `a` (average 1.0) and `b` (average 5.0) in one sport, listed in that order: `a` is master and `b` semi-pro | each bucket ordered by average, highest first, so a higher average never gets a lower tier | high, by reading the comparator; not executed | TierRanking.ListingOrderBeatsAverage | TierRanking.HigherAverageNeverLowerTier |
| src/domains/matches/matches.controller.ts:103 | `editMatch(matchId, dto)` against the service's `(userId, matchId, data)`: the service takes the match id as the user and the body as the match id, and the client refuses the lookup | the host of an existing match edits it | the host's edit is stored | high, by reading the call and the signature; not executed | MatchesController.EditEndpointAsWritten | MatchesController.EditMatch |
| src/domains/matches/matches.controller.ts:122 | `deleteMatch(matchId)` against `(userId, matchId)`: the service's match id is undefined and the client refuses the lookup | the host of an existing match deletes it | the host's match is deleted | high, by reading the call and the signature; not executed | MatchesController.DeleteEndpointAsWritten | MatchesController.DeleteMatch |
| src/domains/matches/matches.controller.ts:87 | `createMatch(user.id, dto)` where the service expects the user and reads `user.id`, which is undefined for a string, so the row has no host | any valid create body | the match is created with the caller as host and participant | high, by reading the call and the signature; not executed | MatchesController.CreateEndpointAsWritten | Matches.MatchRegistry.CreateMatch |
| src/domains/matches/matches.service.ts:193-202 | the score row takes `userId: data.userId`, which the caller never sets, and spreads the unknown key `participantId` into the row, so the client refuses every write | one item rating another participant | the rating is stored for the participant | high, by reading the row and the caller; not executed | MatchesController.RateRequestAsWritten | MatchesController.RateParticipants |
| src/domains/matches/matches.dto.ts:120-126 | the validation pipe's transform step builds the body by calling `new RateDto()` with no argument, and the constructor reads `value` of that undefined argument, so every rating request answers 500 before the handler runs | any rating request, including an empty list or a missing match | the body is validated and the handler runs | medium, by reading the constructor and the transform library's instantiation; not executed | MatchesController.RateEndpointAsWritten | MatchesController.RateParticipants |
| src/database/prisma/prisma.seed.ts:42-48 | the `map` callback has a block body without `return`, so `Promise.all` waits on undefined and the lazy upsert queries are never sent | a fresh database: no sports are created, the tier seed finds none, and a new user gets no tier | all five sports exist after the seed | high, by reading the callback; not executed | Seed.ReferenceTables.SportTypeSeedAsWritten | Seed.ReferenceTables.SportTypeSeed |

The as-written tier run is `TierRanking.FetchTiers`. The corrected run is `TierRanking.FetchTiersByAverage`,
with `TierRanking.FetchTiersByAverageOutcome`.

As written, none of the match write endpoints can succeed: edit, delete and create answer 500 once their
guards pass, and every rating request answers 500 at the validation pipe; past the pipe, every rating write
would still be refused. The rest of the model composes the intended calls. The
consequence of the empty sports seed on a fresh database is `Users.EmptySeedGivesNoTiers`.

## Left out

- Transport is not modelled: HTTP routing, cookies, JWT issuing and checking, the auth guard, the
  response interceptor. Callers pass the authenticated user's id.
- External services are parameters or not modelled:
  - password hashing and comparison are function parameters;
  - random ids are parameters;
  - the image upload to S3 or GCS is an optional URL parameter;
  - the external-account login's HTTP calls are not modelled.
- `IsEmail` and `IsDateString` are not modelled. E-mail syntax is a predicate parameter, and a date string
  is either a parsed instant or "not a date".
- Time is an integer count of milliseconds (match days, now) or days (nickname stamps). Time zones and the
  day arithmetic of the date library are not modelled.
- Lengths count characters, not UTF-16 units. Capability and scores are integers; non-integer numbers the
  validators would let through are not modelled.
- Concurrency is not modelled: `Promise.all`, async `forEach` callbacks and the race between the tier
  disconnects and the connect. Each of these runs one step after another, in list order. So a rating
  request whose items are [already rated, self-rating] answers with the repeated rating in the model,
  while in the source the self-rating item rejects first, before any lookup returns.
- MatchesController.RateParticipants: the declared body type holds one rating, while the endpoint reads a
  `ratings` list from it. The model takes the list as given.
- MatchesController.RateParticipants: checks read the same ledger that `ratePlayer` writes. In the source
  they read the `rating` table while the writes go to the `score` table, so
  `MatchesController.ProcessKeepsTriplesUnique` holds only for this one-ledger composition.
- MatchesController.EditMatch: as written the endpoint calls the service without the user id, and every
  edit that passes the guards answers 500 (see Findings). This member composes the intended call on
  (user, match, body).
- MatchesController.DeleteMatch: as written the endpoint calls the service with the match id only, and
  every delete that passes the guards answers 500 (see Findings). This member composes the intended call.
- Matches.MatchRegistry.CreateMatch: as written the endpoint passes the user id where the service reads the
  user's `id`, so the row has no host and every create answers 500 (see Findings). This member uses the id
  as the host.
- Matches.MatchRegistry.RatePlayer: as written the score row has an undefined `userId` and the unknown key
  `participantId`, so every write is refused (see Findings). This member stores the participant as the
  rated user.
- Returned rows carry their stored dates. The store middleware's nine-hour shift of every row it returns is
  modelled by `DateMiddleware`, and applied at the application cutoff of `MatchesController.ApplyMatch`.
  Users.LatestMatchBefore filters on stored days, as its query does.
- Users.ValidateNicknameChange and Users.NicknameCooldownIsSixtyDays: the nickname stamp is read back through
  the middleware, nine hours after its stored value, so a nickname changed at T is refused until 60 days and
  9 hours later, not 60 days. The model counts whole days from the stored stamp and cannot express the extra
  nine hours.
- TierRanking.SwapTier: the model always ends with the new (tier, sport) key connected. In the source the
  connect looks the key up in the tier table. When the tier table has no row for that tier and sport, the
  connect is refused after the un-awaited disconnects are issued. The user then holds no tier in that sport,
  and the rejection is unhandled. `TierRanking.FetchTiers` inherits this. Its outcome holds only for a tier
  table complete for every ranked sport (`Seed.TiersComplete`, which `Seed.ReferenceTables.TierSeed`
  establishes).
- Users.UserStore.EditUserFavorite: takes the list of a valid favourite-sports body (`UserDto.ValidEditFavorite`).
  The body's rules check no element type, and elements that are not strings are not modelled.
- Matches.Patched: only the declared fields of the update body are modelled. The validation pipe does not
  strip undeclared fields, so a body carrying latitude, longitude or a host id would reach the update;
  the model's unchanged coordinates hold only for bodies without them.
- DateMiddleware.AdjustDates: a query result is modelled as a tree. An object reachable by two paths
  would be converted once per path by the in-place walk, and a cyclic result is not covered.
- The match listing, search and single-match endpoints (`findMatches`, `findMatchesByKeywords`,
  `findMatch` with its profile join) are not part of this model; they only read.
- The user service's `findUserById`, `getUserTier` and the tier service's `getTiers` are not part of this
  model; they are plain reads.
- The daily cron trigger is not modelled: `FetchTiers` is the job's body.
- TierRanking.ScoreAnalysis: averages are exact rationals. The source rounds them to two decimals, which
  does not change which sports qualify.
- TierRanking.TierFor: the source compares `index / usersCount` as floating point with 0.1, 0.3 and 0.6.
  The model uses the exact integer comparisons `10 * index <= k * usersCount`.
- TierRanking.FetchTiers: the sports of the analysis must be in the sports table. The ratings' foreign keys
  guarantee this; a missing bucket would be a type error in the source.
- Seed.ReferenceTables.SportTypeSeed: this member awaits each upsert, one after the other. As written the
  mapping callback returns nothing, so the queries are never sent (see Findings).
- Seed.TierRow: the random id of a tier row is not modelled; rows are identified by (value, sport).
- The random sample-data generator and the seed's logging are not modelled.

=== FILE: dates.dfy ===
/**
 * The date middleware of the store client: every result read from the store
 * is shifted from UTC to Korea Standard Time (+9 hours) by walking the object
 * and rewriting every Date-valued property. The inverse converter (-9 hours)
 * exists beside it but nothing calls it; query arguments are not rewritten.
 *
 * A date is an instant in milliseconds on a timeline without daylight-saving
 * jumps. A JavaScript value is a tree; arrays are objects whose keys are
 * their indices, which is how the key enumeration sees them.
 */
module DateMiddleware {

  const HOUR_MS: int := 3600000
  const KST_OFFSET_MS: int := 9 * HOUR_MS

  /** A copy of the date, nine hours later. */
  function ConvertUTCDateToKST(date: int): int {
    date + KST_OFFSET_MS
  }

  /** A copy of the date, nine hours earlier. */
  function ConvertDateToUTC(date: int): int {
    date - KST_OFFSET_MS
  }

  /** The two converters undo each other, in both orders. */
  lemma ConvertersRoundTrip(d: int)
    ensures ConvertDateToUTC(ConvertUTCDateToKST(d)) == d
    ensures ConvertUTCDateToKST(ConvertDateToUTC(d)) == d
    ensures ConvertUTCDateToKST(d) - d == 9 * HOUR_MS
  {
  }

  datatype Value =
    | Undefined
    | Null
    | Bool(b: bool)
    | Num(n: real)
    | Str(s: string)
    | Date(ms: int)
    | Obj(fields: seq<Field>)

  /** One own enumerable property of an object, in key order. */
  datatype Field = Field(key: string, value: Value)

  /**
   * What the walk leaves behind: a non-object (or a Date at the top, which
   * has no own keys) is untouched; in an object every Date-valued property is
   * replaced by its conversion and every other object-typed property is
   * walked in turn.
   */
  function Adjusted(v: Value, convert: int -> int): Value {
    match v
    case Obj(fs) => Obj(AdjustedFields(fs, convert))
    case _ => v
  }

  function AdjustedFields(fs: seq<Field>, convert: int -> int): (r: seq<Field>)
    ensures |r| == |fs|
  {
    if fs == [] then [] else [AdjustedField(fs[0], convert)] + AdjustedFields(fs[1..], convert)
  }

  function AdjustedField(fd: Field, convert: int -> int): Field {
    match fd.value
    case Date(ms) => Field(fd.key, Date(convert(ms)))
    case Obj(_) => Field(fd.key, Adjusted(fd.value, convert))
    case _ => fd
  }

  lemma {:induction false} AdjustedFieldsAt(fs: seq<Field>, convert: int -> int, k: nat)
    requires k < |fs|
    ensures AdjustedFields(fs, convert)[k] == AdjustedField(fs[k], convert)
  {
    if k > 0 {
      AdjustedFieldsAt(fs[1..], convert, k - 1);
    }
  }

  /**
   * Walks the keys of `obj` in order, overwriting each Date-valued property
   * with its conversion and descending into each object-valued one.
   */
  method AdjustDates(obj: Value, convert: int -> int) returns (r: Value)
    ensures !obj.Obj? ==> r == obj
    ensures r == Adjusted(obj, convert)
    decreases obj
  {
    if !obj.Obj? {
      return obj;
    }
    var fields := obj.fields;
    var i := 0;
    while i < |fields|
      invariant 0 <= i <= |fields| == |obj.fields|
      invariant forall k | 0 <= k < i :: fields[k] == AdjustedField(obj.fields[k], convert)
      invariant fields[i..] == obj.fields[i..]
    {
      var fd := fields[i];
      assert fd == obj.fields[i];
      match fd.value {
        case Date(ms) =>
          fields := fields[i := Field(fd.key, Date(convert(ms)))];
        case Obj(_) =>
          var child := AdjustDates(fd.value, convert);
          fields := fields[i := Field(fd.key, child)];
        case _ =>
      }
      assert fields[i + 1..] == obj.fields[i + 1..];
      i := i + 1;
    }
    forall k | 0 <= k < |fields|
      ensures fields[k] == AdjustedFields(obj.fields, convert)[k]
    {
      AdjustedFieldsAt(obj.fields, convert, k);
    }
    r := Obj(fields);
  }

  /** The value with every Date (at any depth) blanked: its keys and non-Date leaves. */
  function Shape(v: Value): Value {
    match v
    case Date(_) => Date(0)
    case Obj(fs) => Obj(ShapeFields(fs))
    case _ => v
  }

  function ShapeFields(fs: seq<Field>): seq<Field> {
    if fs == [] then [] else [Field(fs[0].key, Shape(fs[0].value))] + ShapeFields(fs[1..])
  }

  /** The Date-valued properties, depth first in key order. */
  function Dates(v: Value): seq<int> {
    match v
    case Obj(fs) => FieldsDates(fs)
    case _ => []
  }

  function FieldsDates(fs: seq<Field>): seq<int> {
    if fs == [] then []
    else
      (match fs[0].value
       case Date(ms) => [ms]
       case Obj(_) => Dates(fs[0].value)
       case _ => [])
      + FieldsDates(fs[1..])
  }

  function MapDates(ds: seq<int>, convert: int -> int): (r: seq<int>)
    ensures |r| == |ds|
    ensures forall i | 0 <= i < |ds| :: r[i] == convert(ds[i])
  {
    if ds == [] then [] else [convert(ds[0])] + MapDates(ds[1..], convert)
  }

  lemma MapDatesAppend(a: seq<int>, b: seq<int>, convert: int -> int)
    ensures MapDates(a + b, convert) == MapDates(a, convert) + MapDates(b, convert)
  {
  }

  /** The walk changes no key and no non-Date leaf. */
  lemma {:induction false} AdjustKeepsShape(v: Value, convert: int -> int)
    ensures Shape(Adjusted(v, convert)) == Shape(v)
  {
    if v.Obj? {
      AdjustFieldsKeepShape(v.fields, convert);
    }
  }

  lemma {:induction false} AdjustFieldsKeepShape(fs: seq<Field>, convert: int -> int)
    ensures ShapeFields(AdjustedFields(fs, convert)) == ShapeFields(fs)
  {
    if fs != [] {
      if fs[0].value.Obj? {
        AdjustKeepsShape(fs[0].value, convert);
      }
      AdjustFieldsKeepShape(fs[1..], convert);
      assert AdjustedFields(fs, convert)[1..] == AdjustedFields(fs[1..], convert);
    }
  }

  /** Every Date-valued property, at any depth, is converted exactly once. */
  lemma {:induction false} AdjustConvertsEachDateOnce(v: Value, convert: int -> int)
    ensures Dates(Adjusted(v, convert)) == MapDates(Dates(v), convert)
  {
    if v.Obj? {
      AdjustFieldsConvertEachDateOnce(v.fields, convert);
    }
  }

  lemma {:induction false} AdjustFieldsConvertEachDateOnce(fs: seq<Field>, convert: int -> int)
    ensures FieldsDates(AdjustedFields(fs, convert)) == MapDates(FieldsDates(fs), convert)
  {
    if fs != [] {
      var head := match fs[0].value
                  case Date(ms) => [ms]
                  case Obj(_) => Dates(fs[0].value)
                  case _ => [];
      if fs[0].value.Obj? {
        AdjustConvertsEachDateOnce(fs[0].value, convert);
      }
      AdjustFieldsConvertEachDateOnce(fs[1..], convert);
      assert AdjustedFields(fs, convert)[1..] == AdjustedFields(fs[1..], convert);
      MapDatesAppend(head, FieldsDates(fs[1..]), convert);
    }
  }

  /** Walking with a conversion and then with its inverse restores the value. */
  lemma {:induction false} AdjustThenInverse(v: Value, convert: int -> int, inverse: int -> int)
    requires forall d :: inverse(convert(d)) == d
    ensures Adjusted(Adjusted(v, convert), inverse) == v
  {
    if v.Obj? {
      AdjustFieldsThenInverse(v.fields, convert, inverse);
    }
  }

  lemma {:induction false} AdjustFieldsThenInverse(fs: seq<Field>, convert: int -> int, inverse: int -> int)
    requires forall d :: inverse(convert(d)) == d
    ensures AdjustedFields(AdjustedFields(fs, convert), inverse) == fs
  {
    if fs != [] {
      if fs[0].value.Obj? {
        AdjustThenInverse(fs[0].value, convert, inverse);
      }
      AdjustFieldsThenInverse(fs[1..], convert, inverse);
      assert AdjustedFields(fs, convert)[1..] == AdjustedFields(fs[1..], convert);
    }
  }

  /** Rewriting a value with the KST converter and then with the unused UTC one, or the other way, restores it. */
  lemma KstUtcRoundTrip(v: Value)
    ensures Adjusted(Adjusted(v, ConvertUTCDateToKST), ConvertDateToUTC) == v
    ensures Adjusted(Adjusted(v, ConvertDateToUTC), ConvertUTCDateToKST) == v
  {
    AdjustThenInverse(v, ConvertUTCDateToKST, ConvertDateToUTC);
    AdjustThenInverse(v, ConvertDateToUTC, ConvertUTCDateToKST);
  }
}

=== FILE: domain.dfy ===
/**
 * Records shared by the match registry, the rating ledger, the user store and
 * the tier ranking engine: the rows of the relational store as plain values.
 */
module Domain {
  import opened Errors

  type UserId = string
  type MatchId = string
  type SportId = int

  datatype Option<+T> = None | Some(value: T)

  /** What a service call gives back: a value or the exception it throws. */
  datatype Result<+T> = Ok(value: T) | Err(error: Failure)

  /** The three values of the store's Gender enum, as the strings the runtime compares. */
  const MALE: string := "male"
  const FEMALE: string := "female"
  const BOTH: string := "both"

  predicate IsGender(g: string) {
    g == MALE || g == FEMALE || g == BOTH
  }

  /** The five tier values, ordered from the lowest bracket to the highest. */
  datatype TierValue = Beginner | Amateur | SemiPro | Pro | Master

  /** Position of a tier in the order beginner < amateur < semi-pro < pro < master. */
  function Rank(t: TierValue): (r: nat)
    ensures r <= 4
    ensures t == Beginner <==> r == 0
  {
    match t
    case Beginner => 0
    case Amateur => 1
    case SemiPro => 2
    case Pro => 3
    case Master => 4
  }

  /** The string stored in the `value` column of a tier row. */
  function TierName(t: TierValue): string {
    match t
    case Beginner => "beginner"
    case Amateur => "amateur"
    case SemiPro => "semi-pro"
    case Pro => "pro"
    case Master => "master"
  }

  /** A tier row is unique on (value, sportsTypeId), so that pair identifies it. */
  datatype TierKey = TierKey(value: TierValue, sportsTypeId: SportId)

  /** The columns of a match that its host sets at creation and may edit later. */
  datatype MatchFields = MatchFields(
    sportsTypeId: SportId,
    tierId: string,
    title: string,
    content: string,
    gender: string,
    capability: int,
    latitude: real,
    longitude: real,
    placeName: string,
    region: string,
    address: string,
    matchDay: int)

  /** A match row together with its participant relation (the roster). */
  datatype Match = Match(id: MatchId, hostId: UserId, fields: MatchFields, participants: seq<UserId>)

  /** One entry of the rating ledger: `raterId` rated `userId` for match `matchId`. */
  datatype Rating = Rating(userId: UserId, raterId: UserId, matchId: MatchId, sportsTypeId: SportId, value: int)

  /** A user profile row. `nickNameUpdatedAt` is a day number, absent until the first nickname change. */
  datatype Profile = Profile(
    userId: UserId,
    gender: string,
    phoneNumber: string,
    bankName: string,
    accountNumber: string,
    nickName: string,
    oneLiner: Option<string>,
    imageUrl: Option<string>,
    nickNameUpdatedAt: Option<int>)

  /** A user row with its tier and liked-sport relations. */
  datatype User = User(
    id: UserId,
    email: Option<string>,
    encryptedPassword: Option<string>,
    tiers: set<TierKey>,
    likedSportsTypes: set<SportId>)

  /** A sports-type row: an auto-incremented id and a unique name. */
  datatype SportRow = SportRow(id: SportId, name: string)

  predicate NoDuplicates<T(==)>(s: seq<T>) {
    forall i, j | 0 <= i < j < |s| :: s[i] != s[j]
  }
}

=== FILE: errors.dfy ===
/**
 * The error vocabulary of the server.
 *
 * `Code` is the static ErrorCodes table: each code carries an HTTP status and a
 * user-facing message, and a ServiceException built from it reports exactly
 * that pair. The match service and controller instead throw the framework's
 * HTTP exceptions with a message constant; `Failure` covers both, plus the
 * runtime error a null dereference raises.
 */
module Errors {

  datatype Code =
    // match related
    | ChooseGender
    | ChooseSportsType
    | InvalidCapability
    | InvalidContent
    | InvalidPlaceName
    | InvalidRate
    | InvalidRegion
    | InvalidTitle
    | MinimumRatersRequired
    | UserProfileNeeded
    | MatchNotFinished
    | MatchSelfParticipation
    | MatchParticipationExpired
    | MatchGenderMismatch
    | RaterNotInMatch
    | MatchTierMismatch
    | MatchEditForbidden
    | MatchCancelLocked
    | MatchNotFound
    | UserNotInParticipants
    | MatchInvalidApplication
    | MatchSelfRating
    | MatchAlreadyRated
    | MatchParticipationReachedLimit
    // user related
    | BankInfoNeeded
    | GenderTypeNeeded
    | InvalidEmailFormat
    | InvalidNickname
    | InvalidPasswordFormat
    | InvalidPasswordLength
    | PhoneNumberNeeded
    | UserInvalidCredential
    | UserUnauthorized
    | UserInvalidNicknameChange
    | UserProfileNotFound
    | UserNoMatchesFound
    | SportTypeNotFound
    | UserDuplicate
    | UserDuplicateProfile
    | UserDuplicatePhoneNumber
    | UserDuplicateNickname

  /** The HTTP status of a code; every code is a client error of one of five kinds. */
  function Status(c: Code): (s: int)
    ensures s == 400 || s == 401 || s == 403 || s == 404 || s == 409
  {
    match c
    case ChooseGender => 400
    case ChooseSportsType => 400
    case InvalidCapability => 400
    case InvalidContent => 400
    case InvalidPlaceName => 400
    case InvalidRate => 400
    case InvalidRegion => 400
    case InvalidTitle => 400
    case MinimumRatersRequired => 400
    case UserProfileNeeded => 400
    case MatchNotFinished => 400
    case MatchSelfParticipation => 400
    case MatchParticipationExpired => 400
    case MatchGenderMismatch => 400
    case RaterNotInMatch => 403
    case MatchTierMismatch => 403
    case MatchEditForbidden => 403
    case MatchCancelLocked => 403
    case MatchNotFound => 404
    case UserNotInParticipants => 404
    case MatchInvalidApplication => 409
    case MatchSelfRating => 409
    case MatchAlreadyRated => 409
    case MatchParticipationReachedLimit => 409
    case BankInfoNeeded => 400
    case GenderTypeNeeded => 400
    case InvalidEmailFormat => 400
    case InvalidNickname => 400
    case InvalidPasswordFormat => 400
    case InvalidPasswordLength => 400
    case PhoneNumberNeeded => 400
    case UserInvalidCredential => 401
    case UserUnauthorized => 401
    case UserInvalidNicknameChange => 403
    case UserProfileNotFound => 404
    case UserNoMatchesFound => 404
    case SportTypeNotFound => 404
    case UserDuplicate => 409
    case UserDuplicateProfile => 409
    case UserDuplicatePhoneNumber => 409
    case UserDuplicateNickname => 409
  }

  /** The user-facing message of a code. */
  function Message(c: Code): string {
    match c
    case ChooseGender => "성별을 선택해주세요."
    case ChooseSportsType => "종목을 설정해주세요."
    case InvalidCapability => "모집 인원을 두 명 이상 입력해주세요."
    case InvalidContent => "내용은 열글자 이상 입력해주세요."
    case InvalidPlaceName => "구장명을 입력해주세요."
    case InvalidRate => "별점은 1점부터 5점까지 매길 수 있습니다."
    case InvalidRegion => "리전을 두글자 이상 입력해주세요."
    case InvalidTitle => "제목은 다섯글자 이상 입력해주세요."
    case MinimumRatersRequired => "최소 한명 이상 평가를 해야합니다."
    case UserProfileNeeded => "프로필을 생성해주세요."
    case MatchNotFinished => "종료되지 않은 매치는 평가할 수 없습니다."
    case MatchSelfParticipation => "자신이 만든 경기에는 신청을 할 수 없습니다."
    case MatchParticipationExpired => "자신이 만든 경기에는 신청을 할 수 없습니다."
    case MatchGenderMismatch => "성별이 맞지 않는 경기에는 신청을 할 수 없습니다."
    case RaterNotInMatch => "참여하지않은 매치는 평가할 수 없습니다."
    case MatchTierMismatch => "자신의 티어와 맞지 않는 경기는 신청할 수 없습니다."
    case MatchEditForbidden => "수정 권한이 없습니다."
    case MatchCancelLocked => "신청 정원이 80%를 초과하여 취소할 수 없습니다."
    case MatchNotFound => "존재하지 않는 경기입니다."
    case UserNotInParticipants => "매치에 참여하지 않은 유저는 평가할 수 없습니다."
    case MatchInvalidApplication => "신청할 수 없는 매치입니다."
    case MatchSelfRating => "자신은 평가할 수 없습니다."
    case MatchAlreadyRated => "이미 평가한 유저입니다."
    case MatchParticipationReachedLimit => "신청 가능한 인원을 초과하였습니다."
    case BankInfoNeeded => "계좌를 확인해주세요."
    case GenderTypeNeeded => "성별을 확인해주세요."
    case InvalidEmailFormat => "이메일 형식을 충족해야합니다"
    case InvalidNickname => "닉네임은 두 글자 이상 입력해주세요."
    case InvalidPasswordFormat => "비밀번호는 대소문자와 특수문자가 최소 1개 이상 존재해야합니다"
    case InvalidPasswordLength => "비밀번호는 8자 이상이어야 합니다"
    case PhoneNumberNeeded => "연락처를 확인해주세요."
    case UserInvalidCredential => "유효하지 않은 사용자 인증 정보입니다."
    case UserUnauthorized => "아이디 또는 패스워드가 일치하지 않습니다."
    case UserInvalidNicknameChange => "닉네임 변경이 유효하지 않습니다."
    case UserProfileNotFound => "프로필을 찾을 수 없습니다."
    case UserNoMatchesFound => "최신 매치가 없습니다."
    case SportTypeNotFound => "종목을 찾을 수 없습니다."
    case UserDuplicate => "중복된 사용자입니다."
    case UserDuplicateProfile => "이미 프로필이 존재하는 유저입니다."
    case UserDuplicatePhoneNumber => "중복된 전화번호입니다."
    case UserDuplicateNickname => "중복된 닉네임입니다."
  }

  /** The codes that deny an action on a match the caller may see: 403 Forbidden. */
  lemma ForbiddenCodes()
    ensures Status(MatchCancelLocked) == 403 && Status(MatchTierMismatch) == 403
    ensures Status(MatchEditForbidden) == 403 && Status(RaterNotInMatch) == 403
  {
  }

  /** The codes for an absent match, participant, profile or sport: 404 Not Found. */
  lemma NotFoundCodes()
    ensures Status(MatchNotFound) == 404 && Status(UserNotInParticipants) == 404
    ensures Status(UserProfileNotFound) == 404 && Status(SportTypeNotFound) == 404
  {
  }

  /** The codes for a clash with existing state: 409 Conflict. */
  lemma ConflictCodes()
    ensures Status(MatchSelfRating) == 409 && Status(MatchAlreadyRated) == 409
    ensures Status(MatchParticipationReachedLimit) == 409
    ensures Status(UserDuplicate) == 409 && Status(UserDuplicateProfile) == 409
    ensures Status(UserDuplicatePhoneNumber) == 409 && Status(UserDuplicateNickname) == 409
  {
  }

  /**
   * Two different codes share status and message, so an error's identity is
   * its code: the (status, message) pair does not determine it.
   */
  lemma ExpiredAndSelfParticipationShareMessage()
    ensures MatchParticipationExpired != MatchSelfParticipation
    ensures Status(MatchParticipationExpired) == Status(MatchSelfParticipation)
    ensures Message(MatchParticipationExpired) == Message(MatchSelfParticipation)
  {
  }

  /** The statuses of the framework exceptions the match code throws. */
  datatype HttpStatus = BadRequest | Unauthorized | Forbidden | NotFound | Conflict

  function HttpCode(s: HttpStatus): int {
    match s
    case BadRequest => 400
    case Unauthorized => 401
    case Forbidden => 403
    case NotFound => 404
    case Conflict => 409
  }

  /** The message constants the match service and controller attach to those exceptions. */
  datatype MatchMessage =
    | InvalidApplicationMsg
    | UnauthorizedMsg
    | InvalidMatchMsg
    | InvalidGenderMsg
    | MaxParticipantsReachedMsg
    | MinParticipantsReachedMsg
    | SelfRatingMsg
    | AlreadyRatedMsg

  /** Every way an operation of the model can fail. */
  datatype Failure =
    | Service(code: Code)
    | Http(status: HttpStatus, message: MatchMessage)
    | Internal  // an error without a status: a TypeError, or a query the client refuses; reported as 500

  /**
   * The status a failure answers with. No exception filter is registered, so
   * the framework's default handling answers: an HTTP exception with its own
   * status, a service exception with the `statusCode` it carries, anything
   * else with 500.
   */
  function StatusOf(f: Failure): (s: int)
    ensures 400 <= s <= 500
    ensures f.Internal? <==> s == 500
  {
    match f
    case Service(c) => Status(c)
    case Http(h, _) => HttpCode(h)
    case Internal => 500
  }
}

=== FILE: match_dto.dfy ===
/**
 * The request bodies of the match endpoints and the declarative constraints
 * the validation pipe checks before any controller runs.
 *
 * String lengths are counted in characters. A date field carries the verdict
 * of the ISO date-string check together with the instant it denotes.
 */
module MatchDto {
  import opened Domain

  /** A date-string field: an ISO date string (with its instant) or anything else. */
  datatype DateInput = DateString(instant: int) | NotADateString(raw: string)

  datatype CreateMatchDto = CreateMatchDto(
    title: string,
    content: string,
    gender: string,
    capability: int,
    sportsTypeId: Option<SportId>,
    tierId: Option<string>,
    latitude: real,
    longitude: real,
    placeName: string,
    region: string,
    address: string,
    matchDay: DateInput)

  /** The "is not empty" check: present and not the empty string. */
  predicate NotEmptyString(s: Option<string>) {
    s.Some? && s.value != ""
  }

  predicate ValidCreateMatch(dto: CreateMatchDto) {
    && |dto.title| >= 5
    && |dto.content| >= 10
    && IsGender(dto.gender)
    && dto.capability >= 2
    && dto.sportsTypeId.Some?
    && NotEmptyString(dto.tierId)
    && |dto.placeName| >= 1
    && |dto.region| >= 2
    && |dto.address| >= 5
    && dto.matchDay.DateString?
  }

  /** A partial update: every field may be absent. */
  datatype UpdateMatchDto = UpdateMatchDto(
    title: Option<string>,
    content: Option<string>,
    gender: Option<string>,
    capability: Option<int>,
    sportsTypeId: Option<SportId>,
    tierId: Option<string>,
    placeName: Option<string>,
    region: Option<string>,
    address: Option<string>,
    matchDay: Option<DateInput>)

  /** Absent fields are skipped; a present field obeys the bound of the create body. */
  predicate ValidUpdateMatch(dto: UpdateMatchDto) {
    && (dto.title.Some? ==> |dto.title.value| >= 5)
    && (dto.content.Some? ==> |dto.content.value| >= 10)
    && (dto.gender.Some? ==> IsGender(dto.gender.value))
    && (dto.capability.Some? ==> dto.capability.value >= 2)
    && (dto.tierId.Some? ==> dto.tierId.value != "")
    && (dto.placeName.Some? ==> |dto.placeName.value| >= 1)
    && (dto.region.Some? ==> |dto.region.value| >= 2)
    && (dto.address.Some? ==> |dto.address.value| >= 5)
    && (dto.matchDay.Some? ==> dto.matchDay.value.DateString?)
  }

  const EmptyUpdate: UpdateMatchDto :=
    UpdateMatchDto(None, None, None, None, None, None, None, None, None, None)

  /** The create body seen as an update that sets every editable field. */
  function AsUpdate(dto: CreateMatchDto): UpdateMatchDto {
    UpdateMatchDto(Some(dto.title), Some(dto.content), Some(dto.gender), Some(dto.capability),
                   dto.sportsTypeId, dto.tierId, Some(dto.placeName), Some(dto.region),
                   Some(dto.address), Some(dto.matchDay))
  }

  /** The update body accepts the empty update, and a valid create body seen as an update. */
  lemma UpdateAcceptsEmptyAndCreate(dto: CreateMatchDto)
    ensures ValidUpdateMatch(EmptyUpdate)
    ensures ValidCreateMatch(dto) ==> ValidUpdateMatch(AsUpdate(dto))
  {
  }

  /** Conversely, the update bounds together with the required fields give the create bounds. */
  lemma UpdateBoundsAreCreateBounds(dto: CreateMatchDto)
    requires ValidUpdateMatch(AsUpdate(dto))
    requires dto.sportsTypeId.Some? && dto.tierId.Some?
    ensures ValidCreateMatch(dto)
  {
  }

  /** The match columns a valid create body yields. */
  function ToFields(dto: CreateMatchDto): (f: MatchFields)
    requires ValidCreateMatch(dto)
    ensures f.capability >= 2 && IsGender(f.gender)
    ensures f.matchDay == dto.matchDay.instant && f.sportsTypeId == dto.sportsTypeId.value
  {
    MatchFields(dto.sportsTypeId.value, dto.tierId.value, dto.title, dto.content, dto.gender,
                dto.capability, dto.latitude, dto.longitude, dto.placeName, dto.region,
                dto.address, dto.matchDay.instant)
  }

  /** A capability below two, zero for one, is refused. */
  lemma CapabilityBelowTwoRejected(dto: CreateMatchDto)
    requires dto.capability < 2
    ensures !ValidCreateMatch(dto)
    ensures !ValidCreateMatch(dto.(capability := 0))
  {
  }

  /** A gender outside the enum, such as "rainbow", is refused. */
  lemma UnknownGenderRejected(dto: CreateMatchDto)
    ensures !ValidCreateMatch(dto.(gender := "rainbow"))
  {
  }

  /** The body of a rating: a score from 1 to 5 for one participant of one match. */
  datatype RateDto = RateDto(value: int, matchId: string, participantId: string, sportsTypeId: Option<SportId>)

  predicate ValidRate(dto: RateDto) {
    && 1 <= dto.value <= 5
    && dto.matchId != ""
    && dto.participantId != ""
    && dto.sportsTypeId.Some?
  }

  /** Scores outside [1, 5], zero for one, are refused. */
  lemma RateOutOfRangeRejected(dto: RateDto)
    requires dto.value < 1 || dto.value > 5
    ensures !ValidRate(dto)
    ensures !ValidRate(dto.(value := 0))
  {
  }
}

=== FILE: matches.dfy ===
/**
 * The match service: a registry of matches, each with its roster (the
 * participant relation), and the ledger of ratings players give each other.
 *
 * Every failure is the framework exception the service throws, with its
 * message constant. Match ids come from a random id generator and are passed
 * in; so is the profile table, which belongs to the user store.
 */
module Matches {
  import opened Errors
  import opened Domain
  import opened MatchDto

  const NoSuchMatch: Failure := Http(NotFound, InvalidMatchMsg)
  const NotHost: Failure := Http(Forbidden, UnauthorizedMsg)
  const LeaveLocked: Failure := Http(Conflict, MinParticipantsReachedMsg)
  const HostApplication: Failure := Http(Unauthorized, InvalidApplicationMsg)
  const RosterFull: Failure := Http(Conflict, MaxParticipantsReachedMsg)
  const GenderMismatch: Failure := Http(Unauthorized, InvalidGenderMsg)

  /**
   * The roster is at 80% of capability or more: `len / capability >= 0.8`,
   * in integers. Capabilities are at least 2, so the integer form is exact.
   */
  predicate AtLeastFourFifths(len: int, capability: int) {
    5 * len >= 4 * capability
  }

  /** The roster without `u`, in the same order. */
  function Without(s: seq<UserId>, u: UserId): (r: seq<UserId>)
    ensures forall x :: x in r <==> x in s && x != u
    ensures |r| <= |s|
    ensures NoDuplicates(s) ==> NoDuplicates(r)
    ensures NoDuplicates(s) && u in s ==> |r| == |s| - 1
    ensures u !in s ==> r == s
  {
    if s == [] then []
    else
      var rest := Without(s[1..], u);
      assert NoDuplicates(s) ==> NoDuplicates(s[1..]) && s[0] !in s[1..];
      if s[0] == u then rest else [s[0]] + rest
  }

  /**
   * What `participate` does to a match that exists, as a join/leave toggle.
   * `profile` is the profile row of `userId`, if there is one; the service
   * dereferences it without a check, so a missing one is an internal error.
   */
  function Toggle(m: Match, userId: UserId, profile: Option<Profile>): (r: Result<Match>)
    requires profile.Some? ==> profile.value.userId == userId
    ensures r.Ok? ==> r.value == m.(participants := r.value.participants)
    // a participant leaves, unless the roster has reached 80% of capability
    ensures userId in m.participants ==>
              && (r.Err? <==> AtLeastFourFifths(|m.participants|, m.fields.capability))
              && (r.Err? ==> r.error == LeaveLocked)
              && (r.Ok? ==> r.value.participants == Without(m.participants, userId))
    // anyone else joins, after the profile, host, capacity and gender checks in that order
    ensures userId !in m.participants ==>
              && (profile.None? ==> r == Err(Internal))
              && (profile.Some? && m.hostId == userId ==> r == Err(HostApplication))
              && (profile.Some? && m.hostId != userId && |m.participants| >= m.fields.capability ==> r == Err(RosterFull))
              && (r.Ok? <==> profile.Some? && m.hostId != userId && |m.participants| < m.fields.capability
                              && (m.fields.gender == BOTH || m.fields.gender == profile.value.gender))
              && (r.Ok? ==> r.value.participants == m.participants + [userId])
              && (r.Err? && profile.Some? && m.hostId != userId && |m.participants| < m.fields.capability ==>
                    r.error == GenderMismatch)
  {
    if userId in m.participants then
      if AtLeastFourFifths(|m.participants|, m.fields.capability) then Err(LeaveLocked)
      else Ok(m.(participants := Without(m.participants, userId)))
    else if profile.None? then Err(Internal)
    else if m.hostId == profile.value.userId then Err(HostApplication)
    else if |m.participants| >= m.fields.capability then Err(RosterFull)
    else if m.fields.gender != BOTH && m.fields.gender != profile.value.gender then Err(GenderMismatch)
    else Ok(m.(participants := m.participants + [userId]))
  }

  /** A roster within its capability stays within it, and a roster without repeats stays so. */
  lemma ToggleKeepsRosterInvariants(m: Match, userId: UserId, profile: Option<Profile>)
    requires profile.Some? ==> profile.value.userId == userId
    requires Toggle(m, userId, profile).Ok?
    ensures var m' := Toggle(m, userId, profile).value;
            && (|m.participants| <= m.fields.capability ==> |m'.participants| <= m'.fields.capability)
            && (NoDuplicates(m.participants) ==> NoDuplicates(m'.participants))
  {
    var m' := Toggle(m, userId, profile).value;
    if userId !in m.participants && NoDuplicates(m.participants) {
      assert m'.participants == m.participants + [userId];
      assert m'.participants[|m.participants|] == userId;
    }
  }

  /** A toggle changes the roster by exactly the one user: joined grows by one, left shrinks by one. */
  lemma ToggleChangesOnlyThatUser(m: Match, userId: UserId, profile: Option<Profile>)
    requires profile.Some? ==> profile.value.userId == userId
    requires NoDuplicates(m.participants)
    requires Toggle(m, userId, profile).Ok?
    ensures var p' := Toggle(m, userId, profile).value.participants;
            && (forall x | x != userId :: x in p' <==> x in m.participants)
            && (userId in p' <==> userId !in m.participants)
            && (userId in m.participants ==> |p'| == |m.participants| - 1)
            && (userId !in m.participants ==> |p'| == |m.participants| + 1)
  {
  }

  /** Joining and then leaving again, when the leave is allowed, restores the roster. */
  lemma JoinThenLeaveRestores(m: Match, userId: UserId, profile: Option<Profile>)
    requires profile.Some? ==> profile.value.userId == userId
    requires userId !in m.participants
    requires Toggle(m, userId, profile).Ok?
    ensures var joined := Toggle(m, userId, profile).value;
            && (Toggle(joined, userId, profile).Ok? <==> 5 * (|m.participants| + 1) < 4 * m.fields.capability)
            && (Toggle(joined, userId, profile).Ok? ==> Toggle(joined, userId, profile).value == m)
  {
    var joined := Toggle(m, userId, profile).value;
    assert userId in joined.participants;
    WithoutAppended(m.participants, userId);
  }

  lemma {:induction false} WithoutAppended(s: seq<UserId>, u: UserId)
    requires u !in s
    ensures Without(s + [u], u) == s
  {
    if s != [] {
      assert (s + [u])[1..] == s[1..] + [u];
      WithoutAppended(s[1..], u);
    }
  }

  /** The host of a match cannot join it, whatever the roster and gender. */
  lemma HostCannotJoin(m: Match, profile: Profile)
    requires profile.userId == m.hostId && m.hostId !in m.participants
    ensures Toggle(m, m.hostId, Some(profile)) == Err(HostApplication)
  {
  }

  /** The fields an update body sets: present fields overwrite, absent ones are kept. */
  function Patched(f: MatchFields, dto: UpdateMatchDto): (g: MatchFields)
    requires ValidUpdateMatch(dto)
    ensures dto == EmptyUpdate ==> g == f
    ensures g.latitude == f.latitude && g.longitude == f.longitude
    ensures dto.capability.Some? ==> g.capability == dto.capability.value
    ensures dto.capability.None? ==> g.capability == f.capability
  {
    MatchFields(
      if dto.sportsTypeId.Some? then dto.sportsTypeId.value else f.sportsTypeId,
      if dto.tierId.Some? then dto.tierId.value else f.tierId,
      if dto.title.Some? then dto.title.value else f.title,
      if dto.content.Some? then dto.content.value else f.content,
      if dto.gender.Some? then dto.gender.value else f.gender,
      if dto.capability.Some? then dto.capability.value else f.capability,
      f.latitude,
      f.longitude,
      if dto.placeName.Some? then dto.placeName.value else f.placeName,
      if dto.region.Some? then dto.region.value else f.region,
      if dto.address.Some? then dto.address.value else f.address,
      if dto.matchDay.Some? then dto.matchDay.value.instant else f.matchDay)
  }

  /** Applying the same update twice is applying it once. */
  lemma PatchIdempotent(f: MatchFields, dto: UpdateMatchDto)
    requires ValidUpdateMatch(dto)
    ensures Patched(Patched(f, dto), dto) == Patched(f, dto)
  {
  }

  /**
   * An edit may lower the capability below the size of the roster: the
   * capacity bound that `participate` keeps is not kept by editing.
   */
  lemma EditCanShrinkCapabilityBelowRoster(f: MatchFields)
    requires f.capability == 3
    ensures var m := Match("m", "h", f, ["h", "a", "b"]);
            var dto := EmptyUpdate.(capability := Some(2));
            && ValidUpdateMatch(dto)
            && |m.participants| <= m.fields.capability
            && |m.participants| > Patched(m.fields, dto).capability
  {
  }

  /** The match table: every key is its match's id, rosters have no repeats and capabilities are at least 2. */
  ghost predicate WellFormed(matches: map<MatchId, Match>) {
    forall id | id in matches ::
      matches[id].id == id && NoDuplicates(matches[id].participants) && matches[id].fields.capability >= 2
  }

  /** No two ratings in the ledger share the triple (rated user, rater, match). */
  predicate TriplesUnique(ledger: seq<Rating>) {
    forall i, j | 0 <= i < j < |ledger| ::
      ledger[i].userId != ledger[j].userId || ledger[i].raterId != ledger[j].raterId
      || ledger[i].matchId != ledger[j].matchId
  }

  /** Some rating in the ledger has this (rated user, rater, match) triple. */
  predicate Rated(ledger: seq<Rating>, userId: UserId, raterId: UserId, matchId: MatchId) {
    exists i | 0 <= i < |ledger| ::
      ledger[i].userId == userId && ledger[i].raterId == raterId && ledger[i].matchId == matchId
  }

  class MatchRegistry {
    var matches: map<MatchId, Match>
    var ledger: seq<Rating>

    ghost predicate Valid()
      reads this
    {
      WellFormed(matches)
    }

    constructor ()
      ensures Valid() && matches == map[] && ledger == []
    {
      matches, ledger := map[], [];
    }

    /** The match with this id, or NotFound. */
    function FindMatch(matchId: MatchId): (r: Result<Match>)
      reads this
      ensures r.Ok? <==> matchId in matches
      ensures r.Ok? ==> r.value == matches[matchId]
      ensures r.Err? ==> r.error == NoSuchMatch
    {
      if matchId in matches then Ok(matches[matchId]) else Err(NoSuchMatch)
    }

    /** The host-only guard of edit and delete: NotFound for a missing match, Forbidden for anyone but its host. */
    function CheckHost(userId: UserId, matchId: MatchId): (r: Result<Match>)
      reads this
      ensures r.Ok? <==> matchId in matches && matches[matchId].hostId == userId
      ensures r.Ok? ==> r.value == matches[matchId]
      ensures matchId !in matches ==> r == Err(NoSuchMatch)
      ensures matchId in matches && matches[matchId].hostId != userId ==> r == Err(NotHost)
    {
      if matchId !in matches then Err(NoSuchMatch)
      else if matches[matchId].hostId != userId then Err(NotHost)
      else Ok(matches[matchId])
    }

    /** Creates a match under a fresh id, with its host as the only participant. */
    method CreateMatch(hostId: UserId, id: MatchId, dto: CreateMatchDto) returns (m: Match)
      requires Valid() && id !in matches && ValidCreateMatch(dto)
      modifies this
      ensures Valid() && ledger == old(ledger)
      ensures m.id == id && m.hostId == hostId && m.fields == ToFields(dto)
      ensures m.participants == [hostId]
      ensures matches == old(matches)[id := m]
    {
      m := Match(id, hostId, ToFields(dto), [hostId]);
      matches := matches[id := m];
    }

    /** Host-only update of the columns the body carries; the roster is untouched. */
    method EditMatch(userId: UserId, matchId: MatchId, dto: UpdateMatchDto) returns (r: Result<Match>)
      requires Valid() && ValidUpdateMatch(dto)
      modifies this
      ensures Valid() && ledger == old(ledger)
      ensures r.Err? ==> r == old(CheckHost(userId, matchId)) && matches == old(matches)
      ensures r.Ok? <==> old(CheckHost(userId, matchId)).Ok?
      ensures r.Ok? ==> var m := old(matches)[matchId];
                        && r.value == m.(fields := Patched(m.fields, dto))
                        && matches == old(matches)[matchId := r.value]
    {
      var found := CheckHost(userId, matchId);
      if found.Err? {
        return Err(found.error);
      }
      var m := found.value;
      var updated := m.(fields := Patched(m.fields, dto));
      matches := matches[matchId := updated];
      r := Ok(updated);
    }

    /** Host-only removal of a match; answers with the removed row. */
    method DeleteMatch(userId: UserId, matchId: MatchId) returns (r: Result<Match>)
      requires Valid()
      modifies this
      ensures Valid() && ledger == old(ledger)
      ensures r == old(CheckHost(userId, matchId))
      ensures r.Err? ==> matches == old(matches)
      ensures r.Ok? ==> matches == old(matches) - {matchId} && matchId !in matches
    {
      r := CheckHost(userId, matchId);
      if r.Ok? {
        matches := matches - {matchId};
      }
    }

    /**
     * The join/leave toggle on the stored match. A missing match is NotFound;
     * otherwise the outcome is `Toggle`, and only that match's roster changes.
     */
    method Participate(matchId: MatchId, userId: UserId, profiles: map<UserId, Profile>) returns (r: Result<Match>)
      requires Valid()
      requires forall u | u in profiles :: profiles[u].userId == u
      modifies this
      ensures Valid() && ledger == old(ledger)
      ensures matchId !in old(matches) ==> r == Err(NoSuchMatch)
      ensures matchId in old(matches) ==>
                r == Toggle(old(matches)[matchId], userId, if userId in profiles then Some(profiles[userId]) else None)
      ensures r.Err? ==> matches == old(matches)
      ensures r.Ok? ==> matches == old(matches)[matchId := r.value]
    {
      if matchId !in matches {
        return Err(NoSuchMatch);
      }
      var m := matches[matchId];
      var isParticipating := userId in m.participants;
      if isParticipating {
        if AtLeastFourFifths(|m.participants|, m.fields.capability) {
          return Err(LeaveLocked);
        }
        var left := m.(participants := Without(m.participants, userId));
        matches := matches[matchId := left];
        return Ok(left);
      }
      if userId !in profiles {
        return Err(Internal);
      }
      var profile := profiles[userId];
      if m.hostId == profile.userId {
        return Err(HostApplication);
      }
      if |m.participants| >= m.fields.capability {
        return Err(RosterFull);
      }
      if m.fields.gender != BOTH && m.fields.gender != profile.gender {
        return Err(GenderMismatch);
      }
      var joined := m.(participants := m.participants + [userId]);
      assert joined.participants[|m.participants|] == userId;
      matches := matches[matchId := joined];
      r := Ok(joined);
    }

    /**
     * Stores one rating of `participantId` by `graderId` for the match, with
     * the match's own sports type. The match is read without a check, so a
     * missing one is an internal error.
     */
    method RatePlayer(matchId: MatchId, graderId: UserId, participantId: UserId, value: int) returns (r: Result<Rating>)
      modifies this
      ensures matches == old(matches)
      ensures matchId !in matches ==> r == Err(Internal) && ledger == old(ledger)
      ensures matchId in matches ==>
                && r.Ok?
                && r.value == Rating(participantId, graderId, matchId, matches[matchId].fields.sportsTypeId, value)
                && ledger == old(ledger) + [r.value]
    {
      if matchId !in matches {
        return Err(Internal);
      }
      var rating := Rating(participantId, graderId, matchId, matches[matchId].fields.sportsTypeId, value);
      ledger := ledger + [rating];
      r := Ok(rating);
    }
  }
}

=== FILE: matches_controller.dfy ===
/**
 * The guards the match endpoints add in front of the service: the match
 * must exist, only its host may edit or delete it, the host may not apply to
 * it, applications close at the match day, and ratings refuse self-ratings
 * and repeated ratings.
 *
 * The rating items are started together in the source; here they are
 * checked and stored one after the other, in list order.
 */
module MatchesController {
  import opened Errors
  import opened Domain
  import opened MatchDto
  import opened Matches
  import DateMiddleware

  const HostSelfApplication: Failure := Http(Conflict, InvalidApplicationMsg)
  const ApplicationClosed: Failure := Http(BadRequest, InvalidApplicationMsg)
  const SelfRating: Failure := Http(Conflict, SelfRatingMsg)
  const AlreadyRated: Failure := Http(Conflict, AlreadyRatedMsg)

  function ProfileOf(profiles: map<UserId, Profile>, userId: UserId): Option<Profile> {
    if userId in profiles then Some(profiles[userId]) else None
  }

  /** The match day as the endpoint reads it: the store middleware shifts every date it returns nine hours later. */
  function DayAsRead(m: Match): int {
    DateMiddleware.ConvertUTCDateToKST(m.fields.matchDay)
  }

  /**
   * Join or leave through the endpoint: NotFound, then the host check, then
   * the time window, then the service's toggle. All three guards hold for a
   * leave as much as for a join. The window is compared with the match day
   * as read, so applications close nine hours after the stored match day.
   */
  method ApplyMatch(reg: MatchRegistry, userId: UserId, matchId: MatchId, now: int, profiles: map<UserId, Profile>)
    returns (r: Result<Match>)
    requires reg.Valid()
    requires forall u | u in profiles :: profiles[u].userId == u
    modifies reg
    ensures reg.Valid() && reg.ledger == old(reg.ledger)
    ensures matchId !in old(reg.matches) ==> r == Err(NoSuchMatch)
    ensures matchId in old(reg.matches) ==>
              var m := old(reg.matches)[matchId];
              && (m.hostId == userId ==> r == Err(HostSelfApplication))
              && (m.hostId != userId && now >= DayAsRead(m) ==> r == Err(ApplicationClosed))
              && (m.hostId != userId && now < DayAsRead(m) ==> r == Toggle(m, userId, ProfileOf(profiles, userId)))
    ensures r.Err? ==> reg.matches == old(reg.matches)
    ensures r.Ok? ==> reg.matches == old(reg.matches)[matchId := r.value]
    // a roster only ever changes before nine hours past the stored match day, and never by its host
    ensures reg.matches != old(reg.matches) ==>
              matchId in old(reg.matches) && now < old(reg.matches)[matchId].fields.matchDay + 9 * DateMiddleware.HOUR_MS
              && old(reg.matches)[matchId].hostId != userId
  {
    var found := reg.FindMatch(matchId);
    if found.Err? {
      return Err(found.error);
    }
    var m := found.value;
    if m.hostId == userId {
      return Err(HostSelfApplication);
    }
    if now >= DayAsRead(m) {
      return Err(ApplicationClosed);
    }
    r := reg.Participate(matchId, userId, profiles);
  }

  /** Edit through the endpoint: the host check runs here and again in the service. */
  method EditMatch(reg: MatchRegistry, userId: UserId, matchId: MatchId, dto: UpdateMatchDto) returns (r: Result<Match>)
    requires reg.Valid() && ValidUpdateMatch(dto)
    modifies reg
    ensures reg.Valid() && reg.ledger == old(reg.ledger)
    ensures r.Ok? <==> matchId in old(reg.matches) && old(reg.matches)[matchId].hostId == userId
    ensures r.Err? ==> r == old(reg.CheckHost(userId, matchId)) && reg.matches == old(reg.matches)
    ensures r.Ok? ==> var m := old(reg.matches)[matchId];
                      reg.matches == old(reg.matches)[matchId := m.(fields := Patched(m.fields, dto))]
  {
    var guard := reg.CheckHost(userId, matchId);
    if guard.Err? {
      return Err(guard.error);
    }
    r := reg.EditMatch(userId, matchId, dto);
  }

  /** Delete through the endpoint: NotFound, then Forbidden for anyone but the host. */
  method DeleteMatch(reg: MatchRegistry, userId: UserId, matchId: MatchId) returns (r: Result<Match>)
    requires reg.Valid()
    modifies reg
    ensures reg.Valid() && reg.ledger == old(reg.ledger)
    ensures r.Ok? <==> matchId in old(reg.matches) && old(reg.matches)[matchId].hostId == userId
    ensures r.Err? ==> r == old(reg.CheckHost(userId, matchId)) && reg.matches == old(reg.matches)
    ensures r.Ok? ==> reg.matches == old(reg.matches) - {matchId}
  {
    var guard := reg.CheckHost(userId, matchId);
    if guard.Err? {
      return Err(guard.error);
    }
    r := reg.DeleteMatch(userId, matchId);
  }

  // ---------------------------------------------------------------------
  // The write endpoints as written. Each hands the service something other
  // than the id it expects, so the database client refuses the service's
  // query with an error that carries no status, which the framework answers
  // with a 500; nothing is written. The methods above are the intended calls.

  /** What an endpoint passes where the service expects an id string. */
  datatype Arg = Id(id: string) | Body | Undefined

  /**
   * The service's lookup-then-host check (`editMatch`, `deleteMatch`) on the
   * arguments it is handed: a non-string match id is refused by the client.
   */
  function ServiceHostCheck(reg: MatchRegistry, userArg: Arg, matchArg: Arg): (r: Result<Match>)
    reads reg
    ensures userArg.Id? && matchArg.Id? ==> r == reg.CheckHost(userArg.id, matchArg.id)
    ensures !matchArg.Id? ==> r == Err(Internal)
  {
    if !matchArg.Id? then Err(Internal)
    else if matchArg.id !in reg.matches then Err(NoSuchMatch)
    else if !userArg.Id? || reg.matches[matchArg.id].hostId != userArg.id then Err(NotHost)
    else Ok(reg.matches[matchArg.id])
  }

  /**
   * The edit endpoint as written: after its own guards it calls
   * `editMatch(matchId, dto)`, so the service takes the match id as the user
   * and the body as the match id. Every refusal is the intended one, and
   * the host of an existing match, whom the intended edit serves, gets a 500.
   */
  function EditEndpointAsWritten(reg: MatchRegistry, userId: UserId, matchId: MatchId): (r: Result<Match>)
    reads reg
    ensures r.Err?
    ensures reg.CheckHost(userId, matchId).Err? ==> r == reg.CheckHost(userId, matchId)
    ensures reg.CheckHost(userId, matchId).Ok? ==> r == Err(Internal)
  {
    var guard := reg.CheckHost(userId, matchId);
    if guard.Err? then guard else ServiceHostCheck(reg, Id(matchId), Body)
  }

  /**
   * The delete endpoint as written: after its own guards it calls
   * `deleteMatch(matchId)`, so the service's match id is undefined. The
   * host of an existing match gets a 500 and the match stays.
   */
  function DeleteEndpointAsWritten(reg: MatchRegistry, userId: UserId, matchId: MatchId): (r: Result<Match>)
    reads reg
    ensures r.Err?
    ensures reg.CheckHost(userId, matchId).Err? ==> r == reg.CheckHost(userId, matchId)
    ensures reg.CheckHost(userId, matchId).Ok? ==> r == Err(Internal)
  {
    var guard := reg.CheckHost(userId, matchId);
    if guard.Err? then guard else ServiceHostCheck(reg, Id(matchId), Undefined)
  }

  /**
   * The service's create on the host it is handed: it reads `.id` of that
   * argument, and a row whose host is undefined is refused by the client.
   */
  function ServiceCreate(host: Arg, id: MatchId, dto: CreateMatchDto): (r: Result<Match>)
    requires ValidCreateMatch(dto)
    ensures host.Id? ==> r == Ok(Match(id, host.id, ToFields(dto), [host.id]))
    ensures !host.Id? ==> r == Err(Internal)
  {
    if host.Id? then Ok(Match(id, host.id, ToFields(dto), [host.id])) else Err(Internal)
  }

  /**
   * The create endpoint as written: it passes `user.id` where the service
   * expects the user, and the service's `user.id` of a string is undefined.
   * No match is ever created.
   */
  function CreateEndpointAsWritten(userId: UserId, id: MatchId, dto: CreateMatchDto): (r: Result<Match>)
    requires ValidCreateMatch(dto)
    ensures r == Err(Internal)
  {
    // the service receives a string, whose `id` property is undefined
    ServiceCreate(Undefined, id, dto)
  }

  /**
   * One rating item as written: the self-rating and repeated-rating checks,
   * the latter against the table the endpoint reads; then the score row,
   * built with `userId: data.userId` (undefined) and the spread body's
   * unknown `participantId`, is refused by the client.
   */
  function RateItemAsWritten(checked: seq<Rating>, raterId: UserId, matchId: MatchId, item: RateDto): (r: Failure)
    ensures item.participantId == raterId ==> r == SelfRating
    ensures item.participantId != raterId && Rated(checked, item.participantId, raterId, matchId) ==> r == AlreadyRated
    ensures item.participantId != raterId && !Rated(checked, item.participantId, raterId, matchId) ==> r == Internal
  {
    if item.participantId == raterId then SelfRating
    else if Rated(checked, item.participantId, raterId, matchId) then AlreadyRated
    else Internal
  }

  /**
   * The rating request as written, given the argument the body's `RateDto`
   * constructor is called with. The constructor reads `value` of that
   * argument, so an undefined one throws before the handler runs. Past it,
   * a missing match is NotFound and every item fails, so a non-empty list
   * always fails and no rating is ever stored. Which failure answers then
   * depends on the order the items' promises reject; the model reports the
   * first item's.
   */
  function RateRequestAsWritten(constructorArg: Arg, reg: MatchRegistry, checked: seq<Rating>, raterId: UserId,
                                matchId: MatchId, items: seq<RateDto>): (r: Result<seq<Rating>>)
    reads reg
    ensures constructorArg.Undefined? ==> r == Err(Internal)
    ensures !constructorArg.Undefined? && matchId !in reg.matches ==> r == Err(NoSuchMatch)
    ensures !constructorArg.Undefined? && matchId in reg.matches ==>
              && (items == [] <==> r == Ok([]))
              && (items != [] ==> r.Err? && r.error in {SelfRating, AlreadyRated, Internal})
  {
    if constructorArg.Undefined? then Err(Internal)
    else if matchId !in reg.matches then Err(NoSuchMatch)
    else if items == [] then Ok([])
    else Err(RateItemAsWritten(checked, raterId, matchId, items[0]))
  }

  /**
   * The rating endpoint as written: the validation pipe turns the body into
   * a `RateDto` by calling its constructor with no argument, so every
   * request, whatever its match and items, answers 500 and stores nothing.
   */
  function RateEndpointAsWritten(reg: MatchRegistry, checked: seq<Rating>, raterId: UserId, matchId: MatchId,
                                 items: seq<RateDto>): (r: Result<seq<Rating>>)
    reads reg
    ensures r == Err(Internal)
  {
    // the pipe's class-transformer step calls `new RateDto()`
    RateRequestAsWritten(Undefined, reg, checked, raterId, matchId, items)
  }

  /** One rating item against the ledger as it stands: self-rating, then a repeated triple, else the new rating. */
  function RateStep(ledger: seq<Rating>, sport: SportId, raterId: UserId, matchId: MatchId, item: RateDto): (r: Result<Rating>)
    ensures item.participantId == raterId ==> r == Err(SelfRating)
    ensures item.participantId != raterId && Rated(ledger, item.participantId, raterId, matchId) ==> r == Err(AlreadyRated)
    ensures r.Ok? <==> item.participantId != raterId && !Rated(ledger, item.participantId, raterId, matchId)
    ensures r.Ok? ==> r.value == Rating(item.participantId, raterId, matchId, sport, item.value)
  {
    if item.participantId == raterId then Err(SelfRating)
    else if Rated(ledger, item.participantId, raterId, matchId) then Err(AlreadyRated)
    else Ok(Rating(item.participantId, raterId, matchId, sport, item.value))
  }

  /** The ledger after the items so far, the ratings they created, and the first failure among them. */
  datatype Outcome = Outcome(ledger: seq<Rating>, created: seq<Rating>, failure: Option<Failure>)

  /** The items processed in list order: each passing item is stored, the first failing one is remembered. */
  function Process(ledger: seq<Rating>, sport: SportId, raterId: UserId, matchId: MatchId, items: seq<RateDto>): (o: Outcome)
    ensures o.ledger == ledger + o.created
    ensures |o.created| <= |items|
  {
    if items == [] then Outcome(ledger, [], None)
    else
      var prev := Process(ledger, sport, raterId, matchId, items[..|items| - 1]);
      match RateStep(prev.ledger, sport, raterId, matchId, items[|items| - 1])
      case Ok(rating) => Outcome(prev.ledger + [rating], prev.created + [rating], prev.failure)
      case Err(e) => Outcome(prev.ledger, prev.created, if prev.failure.None? then Some(e) else prev.failure)
  }

  /**
   * Every rating the items create is by the rater, for this match and sport,
   * of someone other than the rater; and the items all pass exactly when one
   * rating is created per item, each for its own item.
   */
  lemma {:induction false} ProcessCreatesOnlyValidRatings(ledger: seq<Rating>, sport: SportId, raterId: UserId,
                                                          matchId: MatchId, items: seq<RateDto>)
    ensures var o := Process(ledger, sport, raterId, matchId, items);
            && (forall c | c in o.created ::
                  c.raterId == raterId && c.matchId == matchId && c.sportsTypeId == sport && c.userId != raterId)
            && (o.failure.None? <==> |o.created| == |items|)
            && (o.failure.None? ==> forall i | 0 <= i < |items| ::
                  o.created[i].userId == items[i].participantId && o.created[i].value == items[i].value)
  {
    if items != [] {
      var init := items[..|items| - 1];
      ProcessCreatesOnlyValidRatings(ledger, sport, raterId, matchId, init);
    }
  }

  /** A self-rating item is never stored, and the run reports a failure. */
  lemma SelfRatingNeverStored(ledger: seq<Rating>, sport: SportId, raterId: UserId, matchId: MatchId,
                              items: seq<RateDto>, k: nat)
    requires k < |items| && items[k].participantId == raterId
    ensures var o := Process(ledger, sport, raterId, matchId, items);
            o.failure.Some? && forall c | c in o.created :: c.userId != raterId
  {
    ProcessCreatesOnlyValidRatings(ledger, sport, raterId, matchId, items);
  }

  /** Processing the items in order never puts two ratings with the same triple in the ledger. */
  lemma {:induction false} ProcessKeepsTriplesUnique(ledger: seq<Rating>, sport: SportId, raterId: UserId,
                                                     matchId: MatchId, items: seq<RateDto>)
    requires TriplesUnique(ledger)
    ensures TriplesUnique(Process(ledger, sport, raterId, matchId, items).ledger)
  {
    if items != [] {
      var init := items[..|items| - 1];
      ProcessKeepsTriplesUnique(ledger, sport, raterId, matchId, init);
      var prev := Process(ledger, sport, raterId, matchId, init);
      var step := RateStep(prev.ledger, sport, raterId, matchId, items[|items| - 1]);
      if step.Ok? {
        var l := prev.ledger + [step.value];
        forall i, j | 0 <= i < j < |l|
          ensures l[i].userId != l[j].userId || l[i].raterId != l[j].raterId || l[i].matchId != l[j].matchId
        {
          if j == |l| - 1 && l[i].userId == l[j].userId && l[i].raterId == l[j].raterId {
            assert l[i] == prev.ledger[i];
          }
        }
      }
    }
  }

  /**
   * The rating endpoint. A missing match is NotFound and stores nothing.
   * Otherwise each item is checked against the ledger and, if it passes,
   * stored through the service; the answer is the created ratings, or the
   * first failure in list order (the items that passed are stored anyway).
   */
  method RateParticipants(reg: MatchRegistry, raterId: UserId, matchId: MatchId, items: seq<RateDto>)
    returns (r: Result<seq<Rating>>)
    requires reg.Valid()
    modifies reg
    ensures reg.Valid() && reg.matches == old(reg.matches)
    ensures matchId !in reg.matches ==> r == Err(NoSuchMatch) && reg.ledger == old(reg.ledger)
    ensures matchId in reg.matches ==>
              var o := Process(old(reg.ledger), reg.matches[matchId].fields.sportsTypeId, raterId, matchId, items);
              && reg.ledger == o.ledger
              && (o.failure.Some? ==> r == Err(o.failure.value))
              && (o.failure.None? ==> r == Ok(o.created))
  {
    var found := reg.FindMatch(matchId);
    if found.Err? {
      return Err(found.error);
    }
    var sport := found.value.fields.sportsTypeId;
    var created: seq<Rating> := [];
    var failure: Option<Failure> := None;
    var i := 0;
    while i < |items|
      invariant 0 <= i <= |items|
      invariant reg.Valid() && reg.matches == old(reg.matches)
      invariant Process(old(reg.ledger), sport, raterId, matchId, items[..i]) == Outcome(reg.ledger, created, failure)
    {
      assert items[..i + 1][..i] == items[..i];
      var item := items[i];
      if item.participantId == raterId {
        if failure.None? {
          failure := Some(SelfRating);
        }
      } else if Rated(reg.ledger, item.participantId, raterId, matchId) {
        if failure.None? {
          failure := Some(AlreadyRated);
        }
      } else {
        var stored := reg.RatePlayer(matchId, raterId, item.participantId, item.value);
        created := created + [stored.value];
      }
      i := i + 1;
    }
    assert items[..|items|] == items;
    if failure.Some? {
      return Err(failure.value);
    }
    r := Ok(created);
  }
}

=== FILE: seed.dfy ===
/**
 * The reference-data seed: five sports types and, for every sports type in
 * the table, one tier row for each of the five tier values. Both are
 * upserts with an empty update, so rows that already exist are left alone.
 */
module Seed {
  import opened Domain

  const SPORT_NAMES: seq<string> := ["tennis", "soccer", "basketball", "baseball", "badminton"]

  /** The tier values, in seeding order, from the lowest bracket to the highest. */
  const TIER_VALUES: seq<TierValue> := [Beginner, Amateur, SemiPro, Pro, Master]

  function Description(t: TierValue): string {
    match t
    case Beginner => "운동 여정의 첫발을 딛고, 기본기를 다지며 더 큰 도전을 준비하는 단계"
    case Amateur => "기본기를 갖추고, 운동에 대한 열정이 싹트기 시작한 단계"
    case SemiPro => "운동에 대한 깊은 이해를 갖추고, 한계를 시험하는 단계"
    case Pro => "높은 수준의 기술과 경험을 갖춘 전문가"
    case Master => "마침내 해당 분야의 정점에 서게 된 진정한 마스터"
  }

  /** The list holds five distinct values, each tier once, in strictly increasing order. */
  lemma TierValuesAreTheFiveInOrder()
    ensures |TIER_VALUES| == 5 && NoDuplicates(TIER_VALUES)
    ensures forall t: TierValue :: t in TIER_VALUES
    ensures forall i, j | 0 <= i < j < |TIER_VALUES| :: Rank(TIER_VALUES[i]) < Rank(TIER_VALUES[j])
    ensures TierName(TIER_VALUES[0]) == "beginner" && TierName(TIER_VALUES[1]) == "amateur"
    ensures TierName(TIER_VALUES[2]) == "semi-pro" && TierName(TIER_VALUES[3]) == "pro"
    ensures TierName(TIER_VALUES[4]) == "master"
  {
    forall t: TierValue ensures t in TIER_VALUES {
      assert t == TIER_VALUES[Rank(t)];
    }
  }

  /** A tier row; its random id plays no part and is not modelled. */
  datatype TierRow = TierRow(value: TierValue, description: string, sportsTypeId: SportId)

  predicate HasSport(sports: seq<SportRow>, name: string) {
    exists i | 0 <= i < |sports| :: sports[i].name == name
  }

  predicate HasTier(tiers: seq<TierRow>, value: TierValue, sportsTypeId: SportId) {
    exists i | 0 <= i < |tiers| :: tiers[i].value == value && tiers[i].sportsTypeId == sportsTypeId
  }

  /** No two tier rows share the unique key (value, sportsTypeId). */
  predicate TierKeysUnique(tiers: seq<TierRow>) {
    forall i, j | 0 <= i < j < |tiers| ::
      tiers[i].value != tiers[j].value || tiers[i].sportsTypeId != tiers[j].sportsTypeId
  }

  predicate SportNamesUnique(sports: seq<SportRow>) {
    forall i, j | 0 <= i < j < |sports| :: sports[i].name != sports[j].name
  }

  /** Every sports type of the table has a tier row for each of the five values. */
  predicate TiersComplete(sports: seq<SportRow>, tiers: seq<TierRow>) {
    forall i, v | 0 <= i < |sports| && v in TIER_VALUES :: HasTier(tiers, v, sports[i].id)
  }

  lemma HasTierGrows(a: seq<TierRow>, b: seq<TierRow>, value: TierValue, sportsTypeId: SportId)
    requires a <= b
    requires HasTier(a, value, sportsTypeId)
    ensures HasTier(b, value, sportsTypeId)
  {
    var i :| 0 <= i < |a| && a[i].value == value && a[i].sportsTypeId == sportsTypeId;
    assert b[i] == a[i];
  }

  /**
   * What a `map` callback of `sportTypeSeed` returns for a sport name: the
   * name of the upsert it hands back to be awaited. Its block body has no
   * `return`, so it hands back nothing.
   */
  function SeedCallbackResult(name: string): Option<string> {
    None
  }

  /** A row the tier seed may add: a seeded value with its description, for a sport of the table. */
  predicate SeededTierRow(sports: seq<SportRow>, row: TierRow) {
    && row.value in TIER_VALUES
    && row.description == Description(row.value)
    && exists k | 0 <= k < |sports| :: sports[k].id == row.sportsTypeId
  }

  class ReferenceTables {
    var sports: seq<SportRow>
    var tiers: seq<TierRow>
    var nextSportId: int

    ghost predicate Valid()
      reads this
    {
      && SportNamesUnique(sports)
      && (forall i | 0 <= i < |sports| :: sports[i].id < nextSportId)
      && TierKeysUnique(tiers)
    }

    constructor ()
      ensures Valid() && sports == [] && tiers == []
    {
      sports, tiers, nextSportId := [], [], 1;
    }

    /** Upsert by name with an empty update: an existing row is kept as it is. */
    method UpsertSport(name: string)
      requires Valid()
      modifies this
      ensures Valid() && tiers == old(tiers)
      ensures HasSport(old(sports), name) ==> sports == old(sports)
      ensures !HasSport(old(sports), name) ==> sports == old(sports) + [SportRow(old(nextSportId), name)]
    {
      var i := 0;
      while i < |sports|
        invariant 0 <= i <= |sports|
        invariant forall k | 0 <= k < i :: sports[k].name != name
      {
        if sports[i].name == name {
          return;
        }
        i := i + 1;
      }
      sports := sports + [SportRow(nextSportId, name)];
      nextSportId := nextSportId + 1;
    }

    /**
     * `sportTypeSeed` as written: each callback of its `map` builds an upsert
     * in a block body without `return`, so `Promise.all` receives only
     * undefined values. A query is sent only once it is awaited, so none of
     * the five is sent, and the method, which may not modify the tables,
     * leaves them as they are.
     */
    method SportTypeSeedAsWritten() returns (sent: seq<string>)
      requires Valid()
      ensures sent == []
    {
      sent := [];
      var k := 0;
      while k < |SPORT_NAMES|
        invariant 0 <= k <= |SPORT_NAMES|
        invariant sent == []
      {
        match SeedCallbackResult(SPORT_NAMES[k]) {
          case Some(query) => sent := sent + [query];
          case None =>
        }
        k := k + 1;
      }
    }

    /** Upserts the five sports types by name, one after the other, each awaited. */
    method SportTypeSeed()
      requires Valid()
      modifies this
      ensures Valid() && tiers == old(tiers)
      ensures old(sports) <= sports
      ensures forall n | n in SPORT_NAMES :: HasSport(sports, n)
      ensures forall i | |old(sports)| <= i < |sports| :: sports[i].name in SPORT_NAMES
    {
      var k := 0;
      while k < |SPORT_NAMES|
        invariant 0 <= k <= |SPORT_NAMES|
        invariant Valid() && tiers == old(tiers)
        invariant old(sports) <= sports
        invariant forall j | 0 <= j < k :: HasSport(sports, SPORT_NAMES[j])
        invariant forall i | |old(sports)| <= i < |sports| :: sports[i].name in SPORT_NAMES
      {
        ghost var before := sports;
        UpsertSport(SPORT_NAMES[k]);
        forall j | 0 <= j < k ensures HasSport(sports, SPORT_NAMES[j]) {
          var m :| 0 <= m < |before| && before[m].name == SPORT_NAMES[j];
          assert sports[m] == before[m];
        }
        if !HasSport(before, SPORT_NAMES[k]) {
          assert sports[|sports| - 1].name == SPORT_NAMES[k];
        }
        k := k + 1;
      }
    }

    /** Upsert keyed on (value, sportsTypeId) with an empty update. */
    method UpsertTier(value: TierValue, sportsTypeId: SportId)
      requires Valid()
      modifies this
      ensures Valid() && sports == old(sports)
      ensures HasTier(old(tiers), value, sportsTypeId) ==> tiers == old(tiers)
      ensures !HasTier(old(tiers), value, sportsTypeId) ==>
                tiers == old(tiers) + [TierRow(value, Description(value), sportsTypeId)]
      ensures HasTier(tiers, value, sportsTypeId)
    {
      var i := 0;
      while i < |tiers|
        invariant 0 <= i <= |tiers|
        invariant forall k | 0 <= k < i :: tiers[k].value != value || tiers[k].sportsTypeId != sportsTypeId
      {
        if tiers[i].value == value && tiers[i].sportsTypeId == sportsTypeId {
          return;
        }
        i := i + 1;
      }
      tiers := tiers + [TierRow(value, Description(value), sportsTypeId)];
      assert tiers[|tiers| - 1].value == value;
    }

    /**
     * For each sports type in the table, upserts a tier row per tier value.
     * Rows that exist are never modified, and on a table that is already
     * complete nothing changes.
     */
    method TierSeed()
      requires Valid()
      modifies this
      ensures Valid() && sports == old(sports)
      ensures old(tiers) <= tiers
      ensures TiersComplete(sports, tiers)
      ensures TiersComplete(old(sports), old(tiers)) ==> tiers == old(tiers)
      ensures forall i | |old(tiers)| <= i < |tiers| :: SeededTierRow(sports, tiers[i])
    {
      var i := 0;
      while i < |sports|
        invariant 0 <= i <= |sports|
        invariant Valid() && sports == old(sports)
        invariant old(tiers) <= tiers
        invariant forall k | |old(tiers)| <= k < |tiers| :: SeededTierRow(sports, tiers[k])
        invariant forall k, v | 0 <= k < i && v in TIER_VALUES :: HasTier(tiers, v, sports[k].id)
        invariant TiersComplete(old(sports), old(tiers)) ==> tiers == old(tiers)
      {
        var j := 0;
        while j < |TIER_VALUES|
          invariant 0 <= j <= |TIER_VALUES|
          invariant Valid() && sports == old(sports)
          invariant old(tiers) <= tiers
          invariant forall k | |old(tiers)| <= k < |tiers| :: SeededTierRow(sports, tiers[k])
          invariant forall k, v | 0 <= k < i && v in TIER_VALUES :: HasTier(tiers, v, sports[k].id)
          invariant forall m | 0 <= m < j :: HasTier(tiers, TIER_VALUES[m], sports[i].id)
          invariant TiersComplete(old(sports), old(tiers)) ==> tiers == old(tiers)
        {
          ghost var before := tiers;
          if TiersComplete(old(sports), old(tiers)) {
            assert TIER_VALUES[j] in TIER_VALUES;
            assert HasTier(before, TIER_VALUES[j], sports[i].id);
          }
          UpsertTier(TIER_VALUES[j], sports[i].id);
          forall k, v | 0 <= k < i && v in TIER_VALUES ensures HasTier(tiers, v, sports[k].id) {
            HasTierGrows(before, tiers, v, sports[k].id);
          }
          forall m | 0 <= m < j ensures HasTier(tiers, TIER_VALUES[m], sports[i].id) {
            HasTierGrows(before, tiers, TIER_VALUES[m], sports[i].id);
          }
          j := j + 1;
        }
        forall v | v in TIER_VALUES ensures HasTier(tiers, v, sports[i].id) {
          var m :| 0 <= m < |TIER_VALUES| && TIER_VALUES[m] == v;
        }
        i := i + 1;
      }
    }
  }
}

=== FILE: storage.dfy ===
/**
 * The file-extension helper of the storage service: the uploaded file's
 * original name is split on '.' and the last piece is its extension.
 */
module Storage {

  /** Joins the pieces with '.', the inverse of `Split`. */
  function Join(parts: seq<string>): string
    requires |parts| >= 1
  {
    if |parts| == 1 then parts[0] else parts[0] + "." + Join(parts[1..])
  }

  /**
   * The pieces between the dots, as the runtime's string split on "." gives
   * them: there is always at least one piece, and empty pieces are kept.
   */
  function Split(s: string): (parts: seq<string>)
    ensures |parts| >= 1
    ensures forall i | 0 <= i < |parts| :: '.' !in parts[i]
  {
    if |s| == 0 then [""]
    else if s[0] == '.' then [""] + Split(s[1..])
    else
      var rest := Split(s[1..]);
      var parts := [[s[0]] + rest[0]] + rest[1..];
      assert forall i | 1 <= i < |parts| :: parts[i] == rest[i];
      parts
  }

  /** Joining the pieces with '.' gives the name back. */
  lemma {:induction false} SplitJoin(s: string)
    ensures Join(Split(s)) == s
  {
    if |s| > 0 {
      var rest := Split(s[1..]);
      SplitJoin(s[1..]);
      if s[0] == '.' {
        assert Split(s) == [""] + rest;
        assert Split(s)[1..] == rest;
        assert s == "" + "." + s[1..];
      } else {
        var parts := [[s[0]] + rest[0]] + rest[1..];
        assert Split(s) == parts;
        assert parts[1..] == rest[1..];
        if |rest| == 1 {
          assert s == [s[0]] + rest[0];
        } else {
          assert Join(rest) == rest[0] + "." + Join(rest[1..]);
          assert s == [s[0]] + s[1..];
        }
      }
    }
  }

  /** Splitting a name that already has no dot yields that name alone. */
  lemma {:induction false} SplitWithoutDot(s: string)
    requires '.' !in s
    ensures Split(s) == [s]
  {
    if |s| > 0 {
      assert '.' !in s[1..] by {
        forall i | 0 <= i < |s[1..]| ensures s[1..][i] != '.' { assert s[1..][i] == s[i + 1]; }
      }
      SplitWithoutDot(s[1..]);
      assert [s[0]] + s[1..] == s;
    }
  }

  /** The last piece of a split, in terms of the split of the name without its first character. */
  lemma SplitLastPiece(s: string)
    requires |s| > 0
    ensures var rest := Split(s[1..]);
            var parts := Split(s);
            parts[|parts| - 1] == if s[0] != '.' && |rest| == 1 then [s[0]] + rest[0] else rest[|rest| - 1]
  {
    var rest := Split(s[1..]);
    if s[0] == '.' {
      assert Split(s) == [""] + rest;
    } else {
      assert Split(s) == [[s[0]] + rest[0]] + rest[1..];
    }
  }

  /**
   * The last piece of the split is a suffix of the name, and unless it is the
   * whole name the character just before it is a dot.
   */
  lemma {:induction false} LastPieceIsSuffix(s: string)
    ensures var parts := Split(s);
            var e := parts[|parts| - 1];
            |e| <= |s| && s[|s| - |e|..] == e && (|e| < |s| ==> s[|s| - |e| - 1] == '.')
  {
    if |s| > 0 {
      var t := s[1..];
      LastPieceIsSuffix(t);
      SplitLastPiece(s);
      var rest := Split(t);
      var e := rest[|rest| - 1];
      var parts := Split(s);
      assert t[|t| - |e|..] == s[|s| - |e|..];
      if s[0] != '.' && |rest| == 1 {
        // the first character joins the only piece, which is then the whole rest of the name
        SplitJoin(t);
        assert parts[|parts| - 1] == s by { assert s == [s[0]] + t; }
      } else if |e| < |t| {
        assert t[|t| - |e| - 1] == s[|s| - |e| - 1];
      } else if s[0] != '.' {
        // a last piece covering the whole rest would leave no dot to split on
        assert e == t;
        SplitWithoutDot(t);
      }
    }
  }



  /**
   * The extension of a file name: the text after its last '.', or the whole
   * name when it has no '.'.
   */
  function GetExt(originalName: string): (ext: string)
    ensures '.' !in ext
    ensures |ext| <= |originalName| && originalName[|originalName| - |ext|..] == ext
    ensures |ext| < |originalName| ==> originalName[|originalName| - |ext| - 1] == '.'
  {
    var parts := Split(originalName);
    LastPieceIsSuffix(originalName);
    parts[|parts| - 1]
  }

  /** A name without a dot is its own extension. */
  lemma NoDotGivesWholeName(name: string)
    requires '.' !in name
    ensures GetExt(name) == name
  {
    SplitWithoutDot(name);
  }

  /** A name ending in '.' has the empty extension. */
  lemma TrailingDotGivesEmpty(name: string)
    requires |name| > 0 && name[|name| - 1] == '.'
    ensures GetExt(name) == ""
  {
    var ext := GetExt(name);
  }

  /** When the name has a dot, it is some prefix, a dot, and the extension. */
  lemma DotSplitsNameAroundExt(name: string)
    requires '.' in name
    ensures exists prefix :: name == prefix + "." + GetExt(name)
  {
    var ext := GetExt(name);
    var prefix := name[..|name| - |ext| - 1];
    assert name == prefix + "." + ext;
  }
}

=== FILE: tiers.dfy ===
/**
 * The daily tier computation: each user's received ratings are grouped by
 * the sport of the rated match; sports with at least three ratings get an
 * average. Users are then bucketed per sport, each bucket position is mapped
 * to a tier by its fraction of the bucket, and the user's tier for that sport
 * is replaced by the new one.
 *
 * Averages are exact rationals (no rounding to two decimals). The sort of a
 * bucket compares a field its elements (plain user ids) do not have, so it
 * orders nothing; buckets keep the order in which users were added.
 */
module TierRanking {
  import opened Domain
  import opened Users

  /** A rating as the analysis sees it: its score and the sport of the rated match. */
  datatype RatedScore = RatedScore(value: int, sportsTypeId: SportId)

  /** The running sum and count of one sport's ratings. */
  datatype Group = Group(sum: int, count: nat)

  /** The minimum number of ratings in a sport before it is ranked. */
  const MIN_RATINGS: nat := 3

  // ---------------------------------------------------------------------
  // Reference definitions: how many ratings a sport has, and their total

  function CountOf(scores: seq<RatedScore>, s: SportId): nat {
    if scores == [] then 0
    else CountOf(scores[..|scores| - 1], s) + (if scores[|scores| - 1].sportsTypeId == s then 1 else 0)
  }

  function SumOf(scores: seq<RatedScore>, s: SportId): int {
    if scores == [] then 0
    else SumOf(scores[..|scores| - 1], s) + (if scores[|scores| - 1].sportsTypeId == s then scores[|scores| - 1].value else 0)
  }

  /** The grouping the analysis builds, one rating at a time. */
  function Groups(scores: seq<RatedScore>): map<SportId, Group> {
    if scores == [] then map[]
    else
      var prev := Groups(scores[..|scores| - 1]);
      var x := scores[|scores| - 1];
      prev[x.sportsTypeId := if x.sportsTypeId in prev
                             then Group(prev[x.sportsTypeId].sum + x.value, prev[x.sportsTypeId].count + 1)
                             else Group(x.value, 1)]
  }

  /** Each rating is counted once, in the group of its sport: a group is exactly (SumOf, CountOf). */
  lemma {:induction false} GroupsAreSumsAndCounts(scores: seq<RatedScore>)
    ensures forall s :: s in Groups(scores) <==> CountOf(scores, s) > 0
    ensures forall s | s in Groups(scores) :: Groups(scores)[s] == Group(SumOf(scores, s), CountOf(scores, s))
  {
    if scores != [] {
      var init := scores[..|scores| - 1];
      var x := scores[|scores| - 1];
      GroupsAreSumsAndCounts(init);
      forall s ensures s in Groups(scores) <==> CountOf(scores, s) > 0 {
        assert s in Groups(scores) <==> s in Groups(init) || s == x.sportsTypeId;
      }
      forall s | s in Groups(scores) ensures Groups(scores)[s] == Group(SumOf(scores, s), CountOf(scores, s)) {
        if s == x.sportsTypeId && s !in Groups(init) {
          assert CountOf(init, s) == 0;
          SumOfAbsent(init, s);
        }
      }
    }
  }

  lemma {:induction false} SumOfAbsent(scores: seq<RatedScore>, s: SportId)
    requires CountOf(scores, s) == 0
    ensures SumOf(scores, s) == 0
  {
    if scores != [] {
      SumOfAbsent(scores[..|scores| - 1], s);
    }
  }

  /** The analysis: the exact average of every sport with at least three ratings. */
  function Averages(groups: map<SportId, Group>): (a: map<SportId, real>)
    ensures forall s :: s in a <==> s in groups && groups[s].count >= MIN_RATINGS
  {
    map s | s in groups && groups[s].count >= MIN_RATINGS :: groups[s].sum as real / groups[s].count as real
  }

  /**
   * Groups the ratings by sport as (sum, count), then keeps the sports with
   * at least three ratings, with their average.
   */
  method ScoreAnalysis(scores: seq<RatedScore>) returns (analysis: map<SportId, real>)
    ensures forall s :: s in analysis <==> CountOf(scores, s) >= MIN_RATINGS
    ensures forall s | s in analysis :: analysis[s] == SumOf(scores, s) as real / CountOf(scores, s) as real
    ensures analysis == Averages(Groups(scores))
  {
    var result: map<SportId, Group> := map[];
    var i := 0;
    while i < |scores|
      invariant 0 <= i <= |scores|
      invariant result == Groups(scores[..i])
    {
      assert scores[..i + 1][..i] == scores[..i];
      var s := scores[i].sportsTypeId;
      if s in result {
        result := result[s := Group(result[s].sum + scores[i].value, result[s].count + 1)];
      } else {
        result := result[s := Group(scores[i].value, 1)];
      }
      i := i + 1;
    }
    assert scores[..|scores|] == scores;
    GroupsAreSumsAndCounts(scores);
    analysis := map s | s in result && result[s].count >= MIN_RATINGS :: result[s].sum as real / result[s].count as real;
  }

  /** Bounds on a sport's scores bound that sport's sum by its count. */
  lemma {:induction false} SumWithinBounds(scores: seq<RatedScore>, s: SportId, lo: int, hi: int)
    requires forall i | 0 <= i < |scores| && scores[i].sportsTypeId == s :: lo <= scores[i].value <= hi
    ensures lo * CountOf(scores, s) <= SumOf(scores, s) <= hi * CountOf(scores, s)
  {
    if scores != [] {
      var init := scores[..|scores| - 1];
      var x := scores[|scores| - 1];
      assert forall i | 0 <= i < |init| :: init[i] == scores[i];
      SumWithinBounds(init, s, lo, hi);
      if x.sportsTypeId == s {
        var c := CountOf(init, s);
        assert lo * (c + 1) == lo * c + lo;
        assert hi * (c + 1) == hi * c + hi;
      }
    }
  }

  /**
   * A sport's average lies between that sport's lowest and highest score,
   * whatever the other sports' scores are; with scores 1 to 5, between 1 and 5.
   */
  lemma AverageWithinBounds(scores: seq<RatedScore>, s: SportId, lo: int, hi: int)
    requires forall i | 0 <= i < |scores| && scores[i].sportsTypeId == s :: lo <= scores[i].value <= hi
    requires CountOf(scores, s) > 0
    ensures lo as real <= SumOf(scores, s) as real / CountOf(scores, s) as real <= hi as real
  {
    SumWithinBounds(scores, s, lo, hi);
    QuotientWithinBounds(SumOf(scores, s), CountOf(scores, s), lo, hi);
  }

  /** Dividing bounds of the form lo * c <= sum <= hi * c by a positive c. */
  lemma QuotientWithinBounds(sum: int, c: int, lo: int, hi: int)
    requires c > 0 && lo * c <= sum <= hi * c
    ensures lo as real <= sum as real / c as real <= hi as real
  {
    var q := sum as real / c as real;
    assert q * c as real == sum as real;
    assert (lo * c) as real == lo as real * c as real;
    assert (hi * c) as real == hi as real * c as real;
  }

  /** The distinct sports of the ratings, in order of first appearance. */
  function SportsOf(scores: seq<RatedScore>): (ss: seq<SportId>)
    ensures NoDuplicates(ss)
    ensures forall s :: s in ss <==> CountOf(scores, s) > 0
  {
    if scores == [] then []
    else
      var prev := SportsOf(scores[..|scores| - 1]);
      var s := scores[|scores| - 1].sportsTypeId;
      if s in prev then prev else prev + [s]
  }

  /** The counts of the listed sports, added up. */
  function Total(ss: seq<SportId>, scores: seq<RatedScore>): nat {
    if ss == [] then 0 else CountOf(scores, ss[0]) + Total(ss[1..], scores)
  }

  lemma {:induction false} TotalOneMore(ss: seq<SportId>, scores: seq<RatedScore>, x: RatedScore)
    requires NoDuplicates(ss)
    ensures Total(ss, scores + [x]) == Total(ss, scores) + (if x.sportsTypeId in ss then 1 else 0)
  {
    if ss != [] {
      assert (scores + [x])[..|scores + [x]| - 1] == scores;
      assert NoDuplicates(ss[1..]) && (ss[0] in ss[1..] ==> false) by {
        forall i, j | 0 <= i < j < |ss[1..]| ensures ss[1..][i] != ss[1..][j] {
          assert ss[1..][i] == ss[i + 1] && ss[1..][j] == ss[j + 1];
        }
      }
      TotalOneMore(ss[1..], scores, x);
      assert x.sportsTypeId in ss <==> x.sportsTypeId == ss[0] || x.sportsTypeId in ss[1..];
    }
  }

  lemma {:induction false} TotalAppend(ss: seq<SportId>, s: SportId, scores: seq<RatedScore>)
    ensures Total(ss + [s], scores) == Total(ss, scores) + CountOf(scores, s)
  {
    if ss != [] {
      assert (ss + [s])[1..] == ss[1..] + [s];
      TotalAppend(ss[1..], s, scores);
    }
  }

  lemma {:induction false} TotalAbsent(ss: seq<SportId>, scores: seq<RatedScore>)
    requires forall s | s in ss :: CountOf(scores, s) == 0
    ensures Total(ss, scores) == 0
  {
    if ss != [] {
      TotalAbsent(ss[1..], scores);
    }
  }

  /** The group counts add up to the number of ratings: every rating lands in exactly one group. */
  lemma {:induction false} CountsAddUpToRatings(scores: seq<RatedScore>)
    ensures Total(SportsOf(scores), scores) == |scores|
  {
    if scores != [] {
      var init := scores[..|scores| - 1];
      var x := scores[|scores| - 1];
      assert scores == init + [x];
      CountsAddUpToRatings(init);
      var prev := SportsOf(init);
      TotalOneMore(prev, init, x);
      if x.sportsTypeId !in prev {
        TotalAppend(prev, x.sportsTypeId, scores);
        assert CountOf(init, x.sportsTypeId) == 0;
      }
    }
  }

  // ---------------------------------------------------------------------
  // Buckets

  /** A user with the result of their analysis. */
  datatype Analysed = Analysed(id: UserId, analysis: map<SportId, real>)

  /** The users analysed for a sport, in the order they were listed. */
  function Bucket(users: seq<Analysed>, s: SportId): (b: seq<UserId>)
    ensures forall u :: u in b <==> exists i | 0 <= i < |users| :: users[i].id == u && s in users[i].analysis
  {
    if users == [] then []
    else
      var prev := Bucket(users[..|users| - 1], s);
      var last := users[|users| - 1];
      assert forall i | 0 <= i < |users| - 1 :: users[..|users| - 1][i] == users[i];
      if s in last.analysis then prev + [last.id] else prev
  }

  function Ids(users: seq<Analysed>): (ids: seq<UserId>)
    ensures |ids| == |users| && forall i | 0 <= i < |users| :: ids[i] == users[i].id
  {
    if users == [] then [] else Ids(users[..|users| - 1]) + [users[|users| - 1].id]
  }

  /** Distinct users give a bucket without repeats: a user is ranked at most once per sport. */
  lemma {:induction false} BucketHasNoRepeats(users: seq<Analysed>, s: SportId)
    requires NoDuplicates(Ids(users))
    ensures NoDuplicates(Bucket(users, s))
  {
    if users != [] {
      var init := users[..|users| - 1];
      assert Ids(init) == Ids(users)[..|users| - 1];
      BucketHasNoRepeats(init, s);
      var prev := Bucket(init, s);
      var last := users[|users| - 1];
      forall i | 0 <= i < |init| ensures init[i].id != last.id {
        assert Ids(users)[i] == init[i].id && Ids(users)[|users| - 1] == last.id;
      }
      if s in last.analysis {
        assert last.id !in prev;
        var b := prev + [last.id];
        forall i, j | 0 <= i < j < |b| ensures b[i] != b[j] {
          if j == |b| - 1 {
            assert b[i] in prev;
          }
        }
      }
    }
  }

  /**
   * Puts every user into the bucket of each sport their analysis has an
   * entry for. Every sport of the table has a bucket, empty or not.
   */
  method RankBySport(sportIds: seq<SportId>, users: seq<Analysed>) returns (rank: map<SportId, seq<UserId>>)
    requires forall i, s | 0 <= i < |users| && s in users[i].analysis :: s in sportIds
    ensures forall s :: s in rank <==> s in sportIds
    ensures forall s | s in rank :: rank[s] == Bucket(users, s)
  {
    rank := map s | s in sportIds :: [];
    var i := 0;
    while i < |users|
      invariant 0 <= i <= |users|
      invariant forall s :: s in rank <==> s in sportIds
      invariant forall s | s in rank :: rank[s] == Bucket(users[..i], s)
    {
      assert users[..i + 1][..i] == users[..i];
      var u := users[i];
      var k := 0;
      while k < |sportIds|
        invariant 0 <= k <= |sportIds|
        invariant forall s :: s in rank <==> s in sportIds
        invariant forall s | s in rank && s in sportIds[..k] :: rank[s] == Bucket(users[..i + 1], s)
        invariant forall s | s in rank && s !in sportIds[..k] :: rank[s] == Bucket(users[..i], s)
      {
        var s := sportIds[k];
        assert sportIds[..k + 1] == sportIds[..k] + [s];
        if s !in sportIds[..k] {
          if s in u.analysis {
            rank := rank[s := rank[s] + [u.id]];
          }
        }
        k := k + 1;
      }
      assert sportIds[..|sportIds|] == sportIds;
      i := i + 1;
    }
    assert users[..|users|] == users;
  }

  // ---------------------------------------------------------------------
  // Position to tier

  /**
   * The tier of position `i` in a bucket of `n` users: the top tenth is
   * master, up to three tenths pro, up to six tenths semi-pro, the rest
   * amateur (`i / n <= 0.1, 0.3, 0.6`, in integers).
   */
  function TierFor(i: nat, n: nat): (t: TierValue)
    requires i < n
    ensures t != Beginner
  {
    if 10 * i <= n then Master
    else if 10 * i <= 3 * n then Pro
    else if 10 * i <= 6 * n then SemiPro
    else Amateur
  }

  /** The first position of any bucket is master. */
  lemma FirstIsMaster(n: nat)
    requires n > 0
    ensures TierFor(0, n) == Master
  {
  }

  /** A later position never gets a higher tier than an earlier one. */
  lemma TierMonotone(i: nat, j: nat, n: nat)
    requires i <= j < n
    ensures Rank(TierFor(j, n)) <= Rank(TierFor(i, n))
  {
  }

  /** With ten users: positions 0-1 master, 2-3 pro, 4-6 semi-pro, 7-9 amateur. */
  lemma TenUsersExample()
    ensures forall i | 0 <= i <= 1 :: TierFor(i, 10) == Master
    ensures forall i | 2 <= i <= 3 :: TierFor(i, 10) == Pro
    ensures forall i | 4 <= i <= 6 :: TierFor(i, 10) == SemiPro
    ensures forall i | 7 <= i <= 9 :: TierFor(i, 10) == Amateur
  {
  }

  /** A bucket's users paired with their tiers, position by position. */
  datatype Assignment = Assignment(userId: UserId, tier: TierValue)

  function AssignTiers(bucket: seq<UserId>): (r: seq<Assignment>)
    ensures |r| == |bucket|
    ensures forall i | 0 <= i < |bucket| :: r[i].userId == bucket[i] && r[i].tier == TierFor(i, |bucket|)
  {
    seq(|bucket|, i requires 0 <= i < |bucket| => Assignment(bucket[i], TierFor(i, |bucket|)))
  }

  /** Every assignment is one of the four ranked tiers, and master comes first. */
  lemma AssignmentsAreRanked(bucket: seq<UserId>)
    ensures forall a | a in AssignTiers(bucket) :: a.tier != Beginner
    ensures |bucket| > 0 ==> AssignTiers(bucket)[0].tier == Master
  {
  }

  // ---------------------------------------------------------------------
  // Tier swap

  /** The user's tiers in one sport. */
  function TiersIn(tiers: set<TierKey>, s: SportId): set<TierKey> {
    set k | k in tiers && k.sportsTypeId == s
  }

  /** At most one tier per sport. */
  predicate OneTierPerSport(tiers: set<TierKey>) {
    forall a, b | a in tiers && b in tiers && a.sportsTypeId == b.sportsTypeId :: a == b
  }

  /** The user's tiers after the swap: every tier in that sport is dropped, then the new one is added. */
  function Swapped(tiers: set<TierKey>, s: SportId, t: TierValue): (r: set<TierKey>)
    ensures TiersIn(r, s) == {TierKey(t, s)}
    ensures forall s' | s' != s :: TiersIn(r, s') == TiersIn(tiers, s')
    ensures OneTierPerSport(tiers) ==> OneTierPerSport(r)
  {
    (tiers - TiersIn(tiers, s)) + {TierKey(t, s)}
  }

  /** The user table after one swap; a user missing from it is skipped. */
  function SwapIn(users: map<UserId, User>, u: UserId, s: SportId, t: TierValue): map<UserId, User> {
    if u in users then users[u := users[u].(tiers := Swapped(users[u].tiers, s, t))] else users
  }

  /** Two user tables that differ in tiers only. */
  predicate SameButTiers(a: map<UserId, User>, b: map<UserId, User>) {
    a.Keys == b.Keys && forall u | u in b :: b[u] == a[u].(tiers := b[u].tiers)
  }

  /** Changing tiers keeps the table well formed. */
  lemma TiersKeepUsersWellFormed(a: map<UserId, User>, b: map<UserId, User>)
    requires UsersWellFormed(a) && SameButTiers(a, b)
    ensures UsersWellFormed(b)
  {
    forall x, y | x in b && y in b && x != y && b[x].email.Some?
      ensures b[x].email != b[y].email
    {
      assert b[x].email == a[x].email && b[y].email == a[y].email;
    }
  }

  /**
   * Disconnects the user's tiers in that sport and connects the new tier.
   * A user missing from the table is skipped: the buckets are built from the
   * user listing, so the run never swaps one. In the source such a callback
   * would throw on `foundUser.tiers`, a rejection nothing awaits.
   */
  method SwapTier(store: UserStore, userId: UserId, s: SportId, t: TierValue)
    requires store.Valid()
    modifies store
    ensures store.Valid() && store.profiles == old(store.profiles)
    ensures store.users == SwapIn(old(store.users), userId, s, t)
  {
    if userId !in store.users {
      return;
    }
    var u := store.users[userId];
    var kept := set k | k in u.tiers && k.sportsTypeId != s;
    assert kept == u.tiers - TiersIn(u.tiers, s);
    ghost var before := store.users;
    store.users := store.users[userId := u.(tiers := kept + {TierKey(t, s)})];
    TiersKeepUsersWellFormed(before, store.users);
  }

  // ---------------------------------------------------------------------
  // The daily run

  /** A user with the ratings they received, as the user query returns them. */
  datatype UserScores = UserScores(id: UserId, ratedScore: seq<RatedScore>)

  function AnalysedUsers(rows: seq<UserScores>): (r: seq<Analysed>)
    ensures |r| == |rows|
    ensures forall i | 0 <= i < |rows| :: r[i] == Analysed(rows[i].id, Averages(Groups(rows[i].ratedScore)))
  {
    seq(|rows|, i requires 0 <= i < |rows| => Analysed(rows[i].id, Averages(Groups(rows[i].ratedScore))))
  }

  /** The position of a user in a bucket. */
  function IndexIn(b: seq<UserId>, u: UserId): (i: nat)
    requires u in b
    ensures i < |b| && b[i] == u
  {
    if b[0] == u then 0 else 1 + IndexIn(b[1..], u)
  }

  lemma IndexInUnique(b: seq<UserId>, i: nat)
    requires NoDuplicates(b) && i < |b|
    ensures IndexIn(b, b[i]) == i
  {
    var j := IndexIn(b, b[i]);
    assert b[j] == b[i];
  }

  /** The user table once the first |b| users of a bucket of n have had their swap. */
  function AfterBucket(users: map<UserId, User>, s: SportId, b: seq<UserId>, n: nat): map<UserId, User>
    requires |b| <= n
  {
    if b == [] then users
    else SwapIn(AfterBucket(users, s, b[..|b| - 1], n), b[|b| - 1], s, TierFor(|b| - 1, n))
  }

  /**
   * After a bucket without repeats, a user in it holds exactly the tier of
   * their position in that sport, every other user keeps their tiers there,
   * and all users keep their tiers in every other sport.
   */
  lemma {:induction false} AfterBucketTiers(users: map<UserId, User>, s: SportId, b: seq<UserId>, n: nat)
    requires |b| <= n && NoDuplicates(b)
    ensures SameButTiers(users, AfterBucket(users, s, b, n))
    ensures forall u | u in users ::
              TiersIn(AfterBucket(users, s, b, n)[u].tiers, s)
              == if u in b then {TierKey(TierFor(IndexIn(b, u), n), s)} else TiersIn(users[u].tiers, s)
    ensures forall u, s' | u in users && s' != s ::
              TiersIn(AfterBucket(users, s, b, n)[u].tiers, s') == TiersIn(users[u].tiers, s')
  {
    if b != [] {
      var init := b[..|b| - 1];
      var x := b[|b| - 1];
      assert NoDuplicates(init);
      AfterBucketTiers(users, s, init, n);
      IndexInUnique(b, |b| - 1);
      forall u | u in init ensures IndexIn(b, u) == IndexIn(init, u) {
        var j := IndexIn(init, u);
        IndexInUnique(b, j);
      }
      assert forall u :: u in b <==> u in init || u == x;
    }
  }

  /**
   * Pairs each user of one sport's bucket with the tier of their position,
   * then applies the pairs one swap at a time.
   */
  method ApplyBucket(store: UserStore, s: SportId, bucket: seq<UserId>)
    requires store.Valid()
    modifies store
    ensures store.Valid() && store.profiles == old(store.profiles)
    ensures store.users == AfterBucket(old(store.users), s, bucket, |bucket|)
  {
    var assignments := AssignTiers(bucket);
    var i := 0;
    while i < |bucket|
      invariant 0 <= i <= |bucket|
      invariant store.Valid() && store.profiles == old(store.profiles)
      invariant store.users == AfterBucket(old(store.users), s, bucket[..i], |bucket|)
    {
      assert bucket[..i + 1][..i] == bucket[..i];
      SwapTier(store, assignments[i].userId, s, assignments[i].tier);
      i := i + 1;
    }
    assert bucket[..|bucket|] == bucket;
  }

  /** Every listed sport has a bucket, and no bucket repeats a user. */
  predicate BucketsFor(sportIds: seq<SportId>, buckets: map<SportId, seq<UserId>>) {
    forall s | s in sportIds :: s in buckets && NoDuplicates(buckets[s])
  }

  /** The user table after the buckets of the listed sports, in list order. */
  function AfterSports(users: map<UserId, User>, sportIds: seq<SportId>, buckets: map<SportId, seq<UserId>>): map<UserId, User>
    requires forall s | s in sportIds :: s in buckets
  {
    if sportIds == [] then users
    else
      var s := sportIds[|sportIds| - 1];
      AfterBucket(AfterSports(users, sportIds[..|sportIds| - 1], buckets), s, buckets[s], |buckets[s]|)
  }

  /** The tiers a user holds in sport `s` once the bucket `b` of that sport has been applied. */
  function Expected(oldTiers: set<TierKey>, b: seq<UserId>, u: UserId, s: SportId): set<TierKey> {
    if u in b then {TierKey(TierFor(IndexIn(b, u), |b|), s)} else TiersIn(oldTiers, s)
  }

  /**
   * After all the listed sports (each once), a user holds, in each of them,
   * exactly the tier of their position in its bucket, or their old tiers if
   * they are not in it; tiers in unlisted sports and all other fields are kept.
   */
  lemma {:induction false} AfterSportsTiers(users: map<UserId, User>, sportIds: seq<SportId>, buckets: map<SportId, seq<UserId>>)
    requires NoDuplicates(sportIds) && BucketsFor(sportIds, buckets)
    ensures SameButTiers(users, AfterSports(users, sportIds, buckets))
    ensures forall u, s | u in users && s in sportIds ::
              TiersIn(AfterSports(users, sportIds, buckets)[u].tiers, s) == Expected(users[u].tiers, buckets[s], u, s)
    ensures forall u, s | u in users && s !in sportIds ::
              TiersIn(AfterSports(users, sportIds, buckets)[u].tiers, s) == TiersIn(users[u].tiers, s)
  {
    if sportIds != [] {
      var init := sportIds[..|sportIds| - 1];
      var s := sportIds[|sportIds| - 1];
      assert NoDuplicates(init);
      AfterSportsTiers(users, init, buckets);
      var mid := AfterSports(users, init, buckets);
      AfterBucketTiers(mid, s, buckets[s], |buckets[s]|);
      assert s !in init;
      assert forall t :: t in sportIds <==> t in init || t == s;
    }
  }



  /** The user at place i of bucket b, if in the table, holds exactly that place's tier in sport s. */
  predicate HoldsPlaceTier(after: map<UserId, User>, b: seq<UserId>, s: SportId, i: nat)
    requires i < |b|
  {
    b[i] in after ==> TiersIn(after[b[i]].tiers, s) == {TierKey(TierFor(i, |b|), s)}
  }

  /**
   * After the run, two places i < j of a listed sport's bucket are two
   * different users, each holding exactly its place's tier, the earlier one
   * at least as high.
   */
  lemma EarlierPlacesOutcome(users: map<UserId, User>, sportIds: seq<SportId>, buckets: map<SportId, seq<UserId>>,
                             s: SportId, i: nat, j: nat)
    requires NoDuplicates(sportIds) && BucketsFor(sportIds, buckets) && s in sportIds
    requires i < j < |buckets[s]|
    ensures SameButTiers(users, AfterSports(users, sportIds, buckets))
    ensures buckets[s][i] != buckets[s][j]
    ensures HoldsPlaceTier(AfterSports(users, sportIds, buckets), buckets[s], s, i)
    ensures HoldsPlaceTier(AfterSports(users, sportIds, buckets), buckets[s], s, j)
    ensures Rank(TierFor(i, |buckets[s]|)) >= Rank(TierFor(j, |buckets[s]|))
  {
    var b := buckets[s];
    IndexInUnique(b, i);
    IndexInUnique(b, j);
    AfterSportsTiers(users, sportIds, buckets);
    TierMonotone(i, j, |b|);
  }

  predicate AllOneTierPerSport(users: map<UserId, User>) {
    forall u | u in users :: OneTierPerSport(users[u].tiers)
  }

  lemma {:induction false} AfterBucketKeepsOneTier(users: map<UserId, User>, s: SportId, b: seq<UserId>, n: nat)
    requires |b| <= n && AllOneTierPerSport(users)
    ensures AllOneTierPerSport(AfterBucket(users, s, b, n))
  {
    if b != [] {
      AfterBucketKeepsOneTier(users, s, b[..|b| - 1], n);
    }
  }

  /** A table where every user holds at most one tier per sport keeps that property through the daily run. */
  lemma {:induction false} AfterSportsKeepsOneTier(users: map<UserId, User>, sportIds: seq<SportId>, buckets: map<SportId, seq<UserId>>)
    requires forall s | s in sportIds :: s in buckets
    requires AllOneTierPerSport(users)
    ensures AllOneTierPerSport(AfterSports(users, sportIds, buckets))
  {
    if sportIds != [] {
      var init := sportIds[..|sportIds| - 1];
      var s := sportIds[|sportIds| - 1];
      AfterSportsKeepsOneTier(users, init, buckets);
      AfterBucketKeepsOneTier(AfterSports(users, init, buckets), s, buckets[s], |buckets[s]|);
    }
  }

  /** Runs the analysis of every user, in the order the rows came. */
  method AnalyseAll(rows: seq<UserScores>) returns (analysed: seq<Analysed>)
    ensures analysed == AnalysedUsers(rows)
  {
    analysed := [];
    var j := 0;
    while j < |rows|
      invariant 0 <= j <= |rows|
      invariant analysed == AnalysedUsers(rows[..j])
    {
      var a := ScoreAnalysis(rows[j].ratedScore);
      analysed := analysed + [Analysed(rows[j].id, a)];
      j := j + 1;
    }
    assert rows[..|rows|] == rows;
  }

  /** The buckets as the run builds them: users in list order. */
  function BucketsInOrder(analysed: seq<Analysed>, sportIds: seq<SportId>): (buckets: map<SportId, seq<UserId>>)
    ensures forall s :: s in buckets <==> s in sportIds
  {
    map s | s in sportIds :: Bucket(analysed, s)
  }

  /**
   * Applies the buckets sport by sport, in the order of the sports table;
   * the result is `AfterSports` on the table as it was.
   */
  method ApplyBuckets(store: UserStore, sportIds: seq<SportId>, buckets: map<SportId, seq<UserId>>)
    requires store.Valid()
    requires forall s | s in sportIds :: s in buckets
    modifies store
    ensures store.Valid() && store.profiles == old(store.profiles)
    ensures store.users == AfterSports(old(store.users), sportIds, buckets)
  {
    var k := 0;
    while k < |sportIds|
      invariant 0 <= k <= |sportIds|
      invariant store.Valid() && store.profiles == old(store.profiles)
      invariant store.users == AfterSports(old(store.users), sportIds[..k], buckets)
    {
      assert sportIds[..k + 1][..k] == sportIds[..k];
      ApplyBucket(store, sportIds[k], buckets[sportIds[k]]);
      k := k + 1;
    }
    assert sportIds[..|sportIds|] == sportIds;
  }

  /**
   * The daily run as written: analyses every user, buckets them per sport
   * and, sport by sport, gives each bucketed user the tier of their position
   * in the bucket, which is the order users were listed in.
   */
  method FetchTiers(store: UserStore, sportIds: seq<SportId>, rows: seq<UserScores>)
    requires store.Valid()
    requires forall i, s | 0 <= i < |rows| && CountOf(rows[i].ratedScore, s) > 0 :: s in sportIds
    modifies store
    ensures store.Valid() && store.profiles == old(store.profiles)
    ensures store.users == AfterSports(old(store.users), sportIds, BucketsInOrder(AnalysedUsers(rows), sportIds))
  {
    var analysed := AnalyseAll(rows);
    forall i, s | 0 <= i < |analysed| && s in analysed[i].analysis ensures s in sportIds {
      GroupsAreSumsAndCounts(rows[i].ratedScore);
    }
    var rank := RankBySport(sportIds, analysed);
    assert rank == BucketsInOrder(analysed, sportIds);
    ApplyBuckets(store, sportIds, rank);
  }

  /**
   * The daily run as written, for distinct sports and distinct users: a user
   * in a sport's bucket ends with exactly the tier of their position there,
   * which is never beginner; everyone else keeps their tiers in that sport;
   * nothing but tiers changes.
   */
  lemma FetchTiersOutcome(users: map<UserId, User>, sportIds: seq<SportId>, rows: seq<UserScores>, u: UserId, s: SportId)
    requires NoDuplicates(sportIds) && NoDuplicates(Ids(AnalysedUsers(rows)))
    requires u in users && s in sportIds
    ensures var buckets := BucketsInOrder(AnalysedUsers(rows), sportIds);
            SameButTiers(users, AfterSports(users, sportIds, buckets))
    ensures var b := Bucket(AnalysedUsers(rows), s);
            var now := TiersIn(AfterSports(users, sportIds, BucketsInOrder(AnalysedUsers(rows), sportIds))[u].tiers, s);
            && (u in b ==> now == {TierKey(TierFor(IndexIn(b, u), |b|), s)} && TierFor(IndexIn(b, u), |b|) != Beginner)
            && (u !in b ==> now == TiersIn(users[u].tiers, s))
  {
    var analysed := AnalysedUsers(rows);
    forall t | t in sportIds ensures NoDuplicates(BucketsInOrder(analysed, sportIds)[t]) {
      BucketHasNoRepeats(analysed, t);
    }
    AfterSportsTiers(users, sportIds, BucketsInOrder(analysed, sportIds));
  }

  /**
   * As written, a bucket's order is the listing order and not the averages:
   * the first-listed user with the lower average is ranked master and the
   * other, with the higher average, semi-pro.
   */
  lemma ListingOrderBeatsAverage()
    ensures var users := [Analysed("a", map[1 := 1.0]), Analysed("b", map[1 := 5.0])];
            var b := Bucket(users, 1);
            && b == ["a", "b"]
            && users[0].analysis[1] < users[1].analysis[1]
            && TierFor(0, |b|) == Master && TierFor(1, |b|) == SemiPro
  {
    var users := [Analysed("a", map[1 := 1.0]), Analysed("b", map[1 := 5.0])];
    assert users[..1] == [users[0]];
    assert Bucket(users[..1], 1) == ["a"];
  }

  // ---------------------------------------------------------------------
  // Ranking by average (the evident intent of the bucket sort)

  /** A bucketed user with their average in the bucket's sport. */
  datatype Entry = Entry(id: UserId, average: real)

  predicate Descending(l: seq<Entry>) {
    forall i, j | 0 <= i < j < |l| :: l[i].average >= l[j].average
  }

  predicate IdsDistinct(l: seq<Entry>) {
    forall i, j | 0 <= i < j < |l| :: l[i].id != l[j].id
  }

  /** The users analysed for a sport, with their average there, in listing order. */
  function Entries(users: seq<Analysed>, s: SportId): (r: seq<Entry>)
    ensures |r| == |Bucket(users, s)|
    ensures forall i | 0 <= i < |r| :: r[i].id == Bucket(users, s)[i]
    ensures forall e | e in r :: exists i | 0 <= i < |users| :: users[i].id == e.id && s in users[i].analysis
                                                                && users[i].analysis[s] == e.average
  {
    if users == [] then []
    else
      var init := users[..|users| - 1];
      var last := users[|users| - 1];
      var prev := Entries(init, s);
      assert forall i | 0 <= i < |init| :: init[i] == users[i];
      if s in last.analysis then prev + [Entry(last.id, last.analysis[s])] else prev
  }

  /** Inserts after every entry whose average is at least as high, so equal averages keep their order. */
  function Insert(x: Entry, l: seq<Entry>): (r: seq<Entry>)
    ensures |r| == |l| + 1
    ensures multiset(r) == multiset(l) + multiset{x}
  {
    if l == [] then [x]
    else if l[0].average >= x.average then
      assert l == [l[0]] + l[1..];
      [l[0]] + Insert(x, l[1..])
    else
      [x] + l
  }

  /** Insertion puts the entry among the others. */
  lemma InsertMembers(x: Entry, l: seq<Entry>)
    ensures forall e :: e in Insert(x, l) <==> e == x || e in l
  {
    var r := Insert(x, l);
    forall e ensures e in r <==> e == x || e in l {
      assert e in r <==> e in multiset(r);
      assert e in l <==> e in multiset(l);
    }
  }

  /** Insertion keeps a descending list descending. */
  lemma {:induction false} InsertKeepsDescending(x: Entry, l: seq<Entry>)
    requires Descending(l)
    ensures Descending(Insert(x, l))
  {
    var r := Insert(x, l);
    if l != [] && l[0].average >= x.average {
      var rest := Insert(x, l[1..]);
      assert Descending(l[1..]);
      InsertKeepsDescending(x, l[1..]);
      InsertMembers(x, l[1..]);
      forall j | 0 <= j < |rest| ensures l[0].average >= rest[j].average {
        assert rest[j] in rest;
        if rest[j] != x {
          var k :| 0 <= k < |l[1..]| && l[1..][k] == rest[j];
          assert l[k + 1] == rest[j];
        }
      }
      assert r == [l[0]] + rest;
      forall i, j | 0 <= i < j < |r| ensures r[i].average >= r[j].average {
        if i == 0 {
          assert r[j] == rest[j - 1];
        } else {
          assert r[i] == rest[i - 1] && r[j] == rest[j - 1];
        }
      }
    } else if l != [] {
      assert r == [x] + l;
      forall i, j | 0 <= i < j < |r| ensures r[i].average >= r[j].average {
        assert r[j] == l[j - 1];
        if i == 0 {
          assert l[0].average >= l[j - 1].average;
        } else {
          assert r[i] == l[i - 1];
        }
      }
    }
  }

  lemma {:induction false} InsertKeepsIdsDistinct(x: Entry, l: seq<Entry>)
    requires IdsDistinct(l) && forall e | e in l :: e.id != x.id
    ensures IdsDistinct(Insert(x, l))
  {
    var r := Insert(x, l);
    if l != [] && l[0].average >= x.average {
      var rest := Insert(x, l[1..]);
      assert IdsDistinct(l[1..]);
      InsertKeepsIdsDistinct(x, l[1..]);
      InsertMembers(x, l[1..]);
      forall i, j | 0 <= i < j < |r| ensures r[i].id != r[j].id {
        if i == 0 {
          assert r[j] in rest;
          if r[j] != x {
            var k :| 0 <= k < |l[1..]| && l[1..][k] == r[j];
            assert l[k + 1] == r[j];
          }
        } else {
          assert r[i] == rest[i - 1] && r[j] == rest[j - 1];
        }
      }
    } else if l != [] {
      forall i, j | 0 <= i < j < |r| ensures r[i].id != r[j].id {
        if i == 0 {
          assert r[j] == l[j - 1];
        } else {
          assert r[i] == l[i - 1] && r[j] == l[j - 1];
        }
      }
    }
  }

  /** The entries by average, highest first; ties keep their listing order. */
  function SortByAverage(l: seq<Entry>): (r: seq<Entry>)
    ensures |r| == |l|
    ensures multiset(r) == multiset(l)
    ensures Descending(r)
  {
    if l == [] then []
    else
      var init, x := l[..|l| - 1], l[|l| - 1];
      var sorted := SortByAverage(init);
      assert l == init + [x];
      assert multiset(l) == multiset(init) + multiset{x};
      InsertKeepsDescending(x, sorted);
      Insert(x, sorted)
  }

  lemma {:induction false} SortKeepsIdsDistinct(l: seq<Entry>)
    requires IdsDistinct(l)
    ensures IdsDistinct(SortByAverage(l))
  {
    if l != [] {
      var init := l[..|l| - 1];
      var x := l[|l| - 1];
      SortKeepsIdsDistinct(init);
      forall e | e in SortByAverage(init) ensures e.id != x.id {
        assert e in multiset(SortByAverage(init));
        assert e in init;
      }
      InsertKeepsIdsDistinct(x, SortByAverage(init));
    }
  }

  function EntryIds(l: seq<Entry>): (ids: seq<UserId>)
    ensures |ids| == |l| && forall i | 0 <= i < |l| :: ids[i] == l[i].id
  {
    seq(|l|, i requires 0 <= i < |l| => l[i].id)
  }

  /** A sport's bucket ordered by average, highest first. */
  function RankedBucket(users: seq<Analysed>, s: SportId): seq<UserId> {
    EntryIds(SortByAverage(Entries(users, s)))
  }

  /** Ranking by average reorders the bucket: same users, each once when users are distinct. */
  lemma RankedBucketIsBucketReordered(users: seq<Analysed>, s: SportId)
    requires NoDuplicates(Ids(users))
    ensures forall u :: u in RankedBucket(users, s) <==> u in Bucket(users, s)
    ensures NoDuplicates(RankedBucket(users, s))
  {
    var e := Entries(users, s);
    var r := SortByAverage(e);
    BucketHasNoRepeats(users, s);
    assert IdsDistinct(e);
    SortKeepsIdsDistinct(e);
    forall u ensures u in RankedBucket(users, s) <==> u in Bucket(users, s) {
      if u in RankedBucket(users, s) {
        var i :| 0 <= i < |r| && r[i].id == u;
        assert r[i] in multiset(e);
        var j :| 0 <= j < |e| && e[j] == r[i];
        assert Bucket(users, s)[j] == u;
      }
      if u in Bucket(users, s) {
        var j :| 0 <= j < |e| && Bucket(users, s)[j] == u;
        assert e[j] in multiset(r);
        var i :| 0 <= i < |r| && r[i] == e[j];
        assert RankedBucket(users, s)[i] == u;
      }
    }
  }

  /** In a list ordered highest first, a strictly higher average sits at an earlier place. */
  lemma HigherAverageComesFirst(l: seq<Entry>, i: nat, j: nat)
    requires Descending(l) && i < |l| && j < |l| && l[i].average > l[j].average
    ensures i < j
  {
  }

  /** By average, a strictly higher average never gets a lower tier. */
  lemma HigherAverageNeverLowerTier(users: seq<Analysed>, s: SportId, i: nat, j: nat)
    requires var r := SortByAverage(Entries(users, s));
             i < |r| && j < |r| && r[i].average > r[j].average
    ensures var n := |RankedBucket(users, s)|;
            Rank(TierFor(i, n)) >= Rank(TierFor(j, n))
  {
    var r := SortByAverage(Entries(users, s));
    TierMonotone(i, j, |r|);
  }

  /** The entries of two users both analysed for the sport, in listing order. */
  lemma EntriesOfTwo(x: Analysed, y: Analysed, s: SportId)
    requires s in x.analysis && s in y.analysis
    ensures Entries([x, y], s) == [Entry(x.id, x.analysis[s]), Entry(y.id, y.analysis[s])]
  {
    assert [x, y][..1] == [x];
    assert [x][..0] == [];
  }

  /** Two entries come out highest first, the earlier one first on a tie. */
  lemma SortTwo(x: Entry, y: Entry)
    ensures SortByAverage([x, y]) == if x.average >= y.average then [x, y] else [y, x]
  {
    assert [x, y][..1] == [x];
    assert [x][..0] == [];
    assert SortByAverage([x]) == [x];
  }

  /** By average, of two users analysed for the sport, the one with the strictly higher average comes first. */
  lemma TwoUsersByAverage(x: Analysed, y: Analysed, s: SportId)
    requires s in x.analysis && s in y.analysis && x.analysis[s] < y.analysis[s]
    ensures RankedBucket([x, y], s) == [y.id, x.id]
  {
    var ex, ey := Entry(x.id, x.analysis[s]), Entry(y.id, y.analysis[s]);
    EntriesOfTwo(x, y, s);
    SortTwo(ex, ey);
    var r := SortByAverage(Entries([x, y], s));
    assert r == [ey, ex];
    assert RankedBucket([x, y], s) == EntryIds(r);
    assert EntryIds(r)[0] == y.id && EntryIds(r)[1] == x.id;
  }

  /** By average, the two users of the example above swap places. */
  lemma AverageOrderExample()
    ensures RankedBucket([Analysed("a", map[1 := 1.0]), Analysed("b", map[1 := 5.0])], 1) == ["b", "a"]
  {
    TwoUsersByAverage(Analysed("a", map[1 := 1.0]), Analysed("b", map[1 := 5.0]), 1);
  }



  function RankedBuckets(analysed: seq<Analysed>, sportIds: seq<SportId>): (buckets: map<SportId, seq<UserId>>)
    ensures forall s :: s in buckets <==> s in sportIds
  {
    map s | s in sportIds :: RankedBucket(analysed, s)
  }

  /** The daily run with each bucket ordered by average, highest first, before tiers are given. */
  method FetchTiersByAverage(store: UserStore, sportIds: seq<SportId>, rows: seq<UserScores>)
    requires store.Valid()
    modifies store
    ensures store.Valid() && store.profiles == old(store.profiles)
    ensures store.users == AfterSports(old(store.users), sportIds, RankedBuckets(AnalysedUsers(rows), sportIds))
  {
    var analysed := AnalyseAll(rows);
    ApplyBuckets(store, sportIds, RankedBuckets(analysed, sportIds));
  }

  lemma RankedBucketsHaveNoRepeats(analysed: seq<Analysed>, sportIds: seq<SportId>)
    requires NoDuplicates(Ids(analysed))
    ensures BucketsFor(sportIds, RankedBuckets(analysed, sportIds))
  {
    forall t | t in sportIds ensures NoDuplicates(RankedBuckets(analysed, sportIds)[t]) {
      RankedBucketIsBucketReordered(analysed, t);
    }
  }

  /**
   * The corrected run, for distinct sports and users: a ranked user ends with
   * the tier of their place in the average order, so of two users ranked in
   * a sport, the one with the strictly higher average holds a tier at least
   * as high; only tiers change.
   */
  lemma FetchTiersByAverageOutcome(users: map<UserId, User>, sportIds: seq<SportId>, analysed: seq<Analysed>,
                                   s: SportId, i: nat, j: nat)
    requires NoDuplicates(sportIds) && NoDuplicates(Ids(analysed))
    requires s in sportIds
    requires var r := SortByAverage(Entries(analysed, s));
             i < |r| && j < |r| && r[i].average > r[j].average
    ensures RankedBuckets(analysed, sportIds)[s] == RankedBucket(analysed, s)
    ensures SameButTiers(users, AfterSports(users, sportIds, RankedBuckets(analysed, sportIds)))
    ensures var b := RankedBucket(analysed, s);
            b[i] != b[j] && Rank(TierFor(i, |b|)) >= Rank(TierFor(j, |b|))
    ensures HoldsPlaceTier(AfterSports(users, sportIds, RankedBuckets(analysed, sportIds)), RankedBucket(analysed, s), s, i)
    ensures HoldsPlaceTier(AfterSports(users, sportIds, RankedBuckets(analysed, sportIds)), RankedBucket(analysed, s), s, j)
  {
    var buckets := RankedBuckets(analysed, sportIds);
    RankedBucketsHaveNoRepeats(analysed, sportIds);
    HigherAverageComesFirst(SortByAverage(Entries(analysed, s)), i, j);
    EarlierPlacesOutcome(users, sportIds, buckets, s, i, j);
  }

}

=== FILE: user_dto.dfy ===
/**
 * The request bodies of the user endpoints and their declarative
 * constraints. The e-mail format check is a library predicate and is taken
 * as a parameter.
 */
module UserDto {
  import opened Domain

  predicate IsLower(c: char) { 'a' <= c <= 'z' }
  predicate IsUpper(c: char) { 'A' <= c <= 'Z' }
  predicate IsDigit(c: char) { '0' <= c <= '9' }

  /** The special characters the password rule accepts. */
  const SPECIALS: string := "!@#$%^&*(),.?\":{}|<>"

  predicate IsSpecial(c: char) { c in SPECIALS }

  predicate IsPasswordChar(c: char) {
    IsLower(c) || IsUpper(c) || IsDigit(c) || IsSpecial(c)
  }

  /**
   * The password pattern: at least one lower-case letter, one upper-case
   * letter and one special character, and nothing but letters, digits and
   * special characters.
   */
  predicate MatchesPasswordPattern(s: string) {
    && |s| >= 1
    && (exists i | 0 <= i < |s| :: IsLower(s[i]))
    && (exists i | 0 <= i < |s| :: IsUpper(s[i]))
    && (exists i | 0 <= i < |s| :: IsSpecial(s[i]))
    && (forall i | 0 <= i < |s| :: IsPasswordChar(s[i]))
  }

  datatype SignUpUserDto = SignUpUserDto(email: string, password: string)

  /** Sign-up: a well-formed e-mail and a password of at least 8 characters matching the pattern. */
  predicate ValidSignUp(dto: SignUpUserDto, isEmail: string -> bool) {
    isEmail(dto.email) && |dto.password| >= 8 && MatchesPasswordPattern(dto.password)
  }

  datatype SignInUserDto = SignInUserDto(email: string, password: string)

  /** Sign-in: the same pattern, but no minimum length. */
  predicate ValidSignIn(dto: SignInUserDto, isEmail: string -> bool) {
    isEmail(dto.email) && MatchesPasswordPattern(dto.password)
  }

  /** A sign-in password may be shorter than a sign-up password; "aB!" is one. */
  lemma SignInHasNoLengthMinimum(email: string, isEmail: string -> bool)
    requires isEmail(email)
    ensures ValidSignIn(SignInUserDto(email, "aB!"), isEmail)
    ensures !ValidSignUp(SignUpUserDto(email, "aB!"), isEmail)
  {
    var p := "aB!";
    assert IsLower(p[0]) && IsUpper(p[1]) && IsSpecial(p[2]);
  }

  /** A special character, an upper-case and a lower-case letter, then digits only: the pattern holds. */
  lemma PatternFromParts(head: string, digits: string)
    requires |head| == 3 && IsSpecial(head[0]) && IsUpper(head[1]) && IsLower(head[2])
    requires forall i | 0 <= i < |digits| :: IsDigit(digits[i])
    ensures MatchesPasswordPattern(head + digits)
  {
    var p := head + digits;
    assert p[0] == head[0] && p[1] == head[1] && p[2] == head[2];
    forall i | 0 <= i < |p| ensures IsPasswordChar(p[i]) {
      if i >= 3 {
        assert p[i] == digits[i - 3];
      }
    }
  }

  /** "!Rh123123312321" is a valid sign-up password. */
  lemma AcceptedPasswordExample(email: string, isEmail: string -> bool)
    requires isEmail(email)
    ensures ValidSignUp(SignUpUserDto(email, "!Rh123123312321"), isEmail)
  {
    assert SPECIALS[0] == '!';
    PatternFromParts("!Rh", "123123312321");
    assert "!Rh" + "123123312321" == "!Rh123123312321";
  }


  /** "!h123123312321" is long enough but has no upper-case letter: it fails the pattern only. */
  lemma RejectedPasswordExample()
    ensures |"!h123123312321"| >= 8
    ensures !MatchesPasswordPattern("!h123123312321")
  {
    var p := "!h123123312321";
    forall i | 0 <= i < |p| ensures !IsUpper(p[i]) {
    }
  }

  /** "12312" fails both the length minimum and the pattern. */
  lemma ShortDigitsPasswordExample(email: string, isEmail: string -> bool)
    ensures |"12312"| < 8 && !MatchesPasswordPattern("12312")
    ensures !ValidSignUp(SignUpUserDto(email, "12312"), isEmail)
  {
    var p := "12312";
    forall i | 0 <= i < |p| ensures !IsLower(p[i]) {
    }
  }

  /** The sign-up body built from an external account id; its e-mail is a fixed marker. */
  datatype SignUpKakaoUserDto = SignUpKakaoUserDto(id: string, email: string)

  const KAKAO_EMAIL: string := "kakao-account"

  function NewSignUpKakaoUserDto(id: string): (dto: SignUpKakaoUserDto)
    ensures dto.id == id && dto.email == KAKAO_EMAIL
  {
    SignUpKakaoUserDto(id, KAKAO_EMAIL)
  }

  datatype CreateProfileDto = CreateProfileDto(
    gender: string,
    phoneNumber: string,
    bankName: string,
    accountNumber: string,
    nickName: string,
    oneLiner: Option<string>)

  /** Every field is required, the one-liner included (it is checked as a string, not as optional). */
  predicate ValidCreateProfile(dto: CreateProfileDto) {
    && IsGender(dto.gender)
    && |dto.phoneNumber| >= 11
    && |dto.bankName| >= 2
    && |dto.accountNumber| >= 8
    && |dto.nickName| >= 2
    && dto.oneLiner.Some?
  }

  datatype EditProfileDto = EditProfileDto(
    gender: Option<string>,
    phoneNumber: Option<string>,
    bankName: Option<string>,
    accountNumber: Option<string>,
    nickName: Option<string>,
    oneLiner: Option<string>)

  /**
   * Every field is optional; a present field must be non-empty and obey the
   * create bound, except the nickname, which is only required to be non-empty.
   */
  predicate ValidEditProfile(dto: EditProfileDto) {
    && (dto.gender.Some? ==> dto.gender.value != "" && IsGender(dto.gender.value))
    && (dto.phoneNumber.Some? ==> dto.phoneNumber.value != "" && |dto.phoneNumber.value| >= 11)
    && (dto.bankName.Some? ==> dto.bankName.value != "" && |dto.bankName.value| >= 2)
    && (dto.accountNumber.Some? ==> dto.accountNumber.value != "" && |dto.accountNumber.value| >= 8)
    && (dto.nickName.Some? ==> dto.nickName.value != "")
  }

  const EmptyEdit: EditProfileDto := EditProfileDto(None, None, None, None, None, None)

  /** The create body seen as an edit that sets every field. */
  function CreateAsEdit(dto: CreateProfileDto): EditProfileDto {
    EditProfileDto(Some(dto.gender), Some(dto.phoneNumber), Some(dto.bankName),
                   Some(dto.accountNumber), Some(dto.nickName), dto.oneLiner)
  }

  /** The empty edit is valid, and so is any valid create body seen as an edit. */
  lemma EditAcceptsEmptyAndCreate(dto: CreateProfileDto)
    ensures ValidEditProfile(EmptyEdit)
    ensures ValidCreateProfile(dto) ==> ValidEditProfile(CreateAsEdit(dto))
  {
  }

  /** The edit body refuses what the create body refuses, except a one-character nickname. */
  lemma EditBoundsMatchCreateExceptNickname(dto: CreateProfileDto)
    requires ValidEditProfile(CreateAsEdit(dto)) && dto.oneLiner.Some?
    ensures ValidCreateProfile(dto) <==> |dto.nickName| >= 2
  {
  }

  /** Examples the edit body refuses: an unknown gender, a short phone, bank name or account. */
  lemma EditRejectionExamples()
    ensures !ValidEditProfile(EmptyEdit.(gender := Some("rainbow")))
    ensures !ValidEditProfile(EmptyEdit.(phoneNumber := Some("12345")))
    ensures !ValidEditProfile(EmptyEdit.(bankName := Some("o")))
    ensures !ValidEditProfile(EmptyEdit.(accountNumber := Some("312")))
  {
  }

  /**
   * The favourite-sports body. `sportsType` is None when the field is
   * missing, null or not an array. `IsArray` checks no element type, and
   * `IsNotEmpty` refuses only missing, null and "" values, so an empty list
   * passes.
   */
  datatype EditFavoriteDto = EditFavoriteDto(sportsType: Option<seq<string>>)

  predicate ValidEditFavorite(dto: EditFavoriteDto) {
    dto.sportsType.Some?
  }

  /** The empty list is a valid favourite-sports body; a missing field is not. */
  lemma EmptyFavoriteListAccepted()
    ensures ValidEditFavorite(EditFavoriteDto(Some([])))
    ensures !ValidEditFavorite(EditFavoriteDto(None))
  {
  }
}

=== FILE: users.dfy ===
/**
 * The user service: the user table and the profile table, the uniqueness
 * rules on profiles, the nickname-change cooldown, profile edits, liked
 * sports, sign-up as an upsert, sign-in and the read-only selectors over
 * matches and ratings.
 *
 * Days are whole day numbers. Random ids, password hashing and comparison,
 * and image upload are passed in as values or functions.
 */
module Users {
  import opened Errors
  import opened Domain
  import opened UserDto
  import opened Seed

  /** The cooldown, in days, between nickname changes, and the stamp's look-ahead. */
  const NICKNAME_COOLDOWN_DAYS: int := 30

  // ---------------------------------------------------------------------
  // Lookups on the unique columns of the profile and user tables

  predicate PhoneTaken(profiles: map<UserId, Profile>, phone: string) {
    exists u | u in profiles :: profiles[u].phoneNumber == phone
  }

  predicate NicknameTaken(profiles: map<UserId, Profile>, nick: string) {
    exists u | u in profiles :: profiles[u].nickName == nick
  }

  predicate EmailTaken(users: map<UserId, User>, email: string) {
    exists u | u in users :: users[u].email == Some(email)
  }

  /** The store's unique constraints: keys match rows, and phone numbers and nicknames are unique. */
  ghost predicate ProfilesWellFormed(profiles: map<UserId, Profile>) {
    && (forall u | u in profiles :: profiles[u].userId == u)
    && (forall a, b | a in profiles && b in profiles && a != b ::
          profiles[a].phoneNumber != profiles[b].phoneNumber && profiles[a].nickName != profiles[b].nickName)
  }

  /** Keys match rows, e-mails are unique, and a user has an e-mail exactly when it has a password. */
  ghost predicate UsersWellFormed(users: map<UserId, User>) {
    && (forall u | u in users :: users[u].id == u)
    && (forall u | u in users :: users[u].email.Some? <==> users[u].encryptedPassword.Some?)
    && (forall a, b | a in users && b in users && a != b && users[a].email.Some? :: users[a].email != users[b].email)
  }

  // ---------------------------------------------------------------------
  // Validators: each gives the failure it throws, or None when it passes

  function ValidatePhoneNumber(profiles: map<UserId, Profile>, phone: string): (r: Option<Failure>)
    ensures r.Some? <==> PhoneTaken(profiles, phone)
    ensures r.Some? ==> r.value == Service(UserDuplicatePhoneNumber)
  {
    if PhoneTaken(profiles, phone) then Some(Service(UserDuplicatePhoneNumber)) else None
  }

  function ValidateNickname(profiles: map<UserId, Profile>, nick: string): (r: Option<Failure>)
    ensures r.Some? <==> NicknameTaken(profiles, nick)
    ensures r.Some? ==> r.value == Service(UserDuplicateNickname)
  {
    if NicknameTaken(profiles, nick) then Some(Service(UserDuplicateNickname)) else None
  }

  function ValidateEmail(users: map<UserId, User>, email: string): (r: Option<Failure>)
    ensures r.Some? <==> EmailTaken(users, email)
    ensures r.Some? ==> r.value == Service(UserDuplicate)
  {
    if EmailTaken(users, email) then Some(Service(UserDuplicate)) else None
  }

  /**
   * Before a profile is created: an existing profile for the user, then a
   * taken phone number, then a taken nickname, in that order.
   */
  function ValidateProfile(profiles: map<UserId, Profile>, userId: UserId, dto: CreateProfileDto): (r: Option<Failure>)
    ensures userId in profiles ==> r == Some(Service(UserDuplicateProfile))
    ensures userId !in profiles && PhoneTaken(profiles, dto.phoneNumber) ==> r == Some(Service(UserDuplicatePhoneNumber))
    ensures userId !in profiles && !PhoneTaken(profiles, dto.phoneNumber) && NicknameTaken(profiles, dto.nickName) ==>
              r == Some(Service(UserDuplicateNickname))
    ensures r.None? <==> userId !in profiles && !PhoneTaken(profiles, dto.phoneNumber) && !NicknameTaken(profiles, dto.nickName)
  {
    if userId in profiles then Some(Service(UserDuplicateProfile))
    else if ValidatePhoneNumber(profiles, dto.phoneNumber).Some? then ValidatePhoneNumber(profiles, dto.phoneNumber)
    else ValidateNickname(profiles, dto.nickName)
  }

  /**
   * The nickname-change rule. Keeping the nickname, or never having changed
   * it, passes at once. Otherwise fewer than 30 days since the stored stamp
   * is refused, and then the new nickname must be free. An absent new
   * nickname counts as a change; its uniqueness lookup then has no key, which
   * the store refuses with an internal error.
   */
  function ValidateNicknameChange(profiles: map<UserId, Profile>, existing: Profile, newNickname: Option<string>, today: int)
    : (r: Option<Failure>)
    ensures newNickname == Some(existing.nickName) || existing.nickNameUpdatedAt.None? ==> r.None?
    ensures newNickname != Some(existing.nickName) && existing.nickNameUpdatedAt.Some? ==>
              && (today - existing.nickNameUpdatedAt.value < NICKNAME_COOLDOWN_DAYS ==>
                    r == Some(Service(UserInvalidNicknameChange)))
              && (today - existing.nickNameUpdatedAt.value >= NICKNAME_COOLDOWN_DAYS ==>
                    && (newNickname.None? ==> r == Some(Internal))
                    && (newNickname.Some? ==> r == ValidateNickname(profiles, newNickname.value)))
  {
    if newNickname == Some(existing.nickName) || existing.nickNameUpdatedAt.None? then None
    else if today - existing.nickNameUpdatedAt.value < NICKNAME_COOLDOWN_DAYS then Some(Service(UserInvalidNicknameChange))
    else if newNickname.None? then Some(Internal)
    else ValidateNickname(profiles, newNickname.value)
  }

  // ---------------------------------------------------------------------
  // Profile edits

  /**
   * The profile after an edit: present fields overwrite, an uploaded image
   * replaces the stored one, and a nickname change stamps today + 30 days.
   */
  function EditedProfile(p: Profile, dto: EditProfileDto, imageUrl: Option<string>, today: int): (q: Profile)
    ensures q.userId == p.userId
    ensures dto.nickName.Some? && dto.nickName.value != p.nickName ==>
              q.nickNameUpdatedAt == Some(today + NICKNAME_COOLDOWN_DAYS)
    ensures dto.nickName.None? || dto.nickName.value == p.nickName ==> q.nickNameUpdatedAt == p.nickNameUpdatedAt
    ensures dto == EmptyEdit && imageUrl.None? ==> q == p
  {
    Profile(
      p.userId,
      if dto.gender.Some? then dto.gender.value else p.gender,
      if dto.phoneNumber.Some? then dto.phoneNumber.value else p.phoneNumber,
      if dto.bankName.Some? then dto.bankName.value else p.bankName,
      if dto.accountNumber.Some? then dto.accountNumber.value else p.accountNumber,
      if dto.nickName.Some? then dto.nickName.value else p.nickName,
      if dto.oneLiner.Some? then dto.oneLiner else p.oneLiner,
      if imageUrl.Some? then imageUrl else p.imageUrl,
      if dto.nickName.Some? && dto.nickName.value != p.nickName then Some(today + NICKNAME_COOLDOWN_DAYS)
      else p.nickNameUpdatedAt)
  }

  /** The edited row would share a phone number or nickname with another user's profile. */
  predicate ClashesWithOthers(profiles: map<UserId, Profile>, userId: UserId, q: Profile) {
    exists u | u in profiles && u != userId ::
      profiles[u].phoneNumber == q.phoneNumber || profiles[u].nickName == q.nickName
  }

  /**
   * The outcome of a profile edit: the profile must exist, the nickname rule
   * must pass, a given phone number that differs from the stored one must be
   * free, and the store's unique columns must accept the new row.
   */
  function EditOutcome(profiles: map<UserId, Profile>, userId: UserId, dto: EditProfileDto, imageUrl: Option<string>, today: int)
    : (r: Result<Profile>)
    ensures userId !in profiles ==> r == Err(Service(UserProfileNotFound))
    ensures r.Ok? ==> userId in profiles && r.value == EditedProfile(profiles[userId], dto, imageUrl, today)
    ensures r.Ok? ==> !ClashesWithOthers(profiles, userId, r.value)
    ensures (userId in profiles && dto.phoneNumber.Some? && dto.phoneNumber.value != profiles[userId].phoneNumber
             && PhoneTaken(profiles, dto.phoneNumber.value)) ==> r.Err?
  {
    if userId !in profiles then Err(Service(UserProfileNotFound))
    else
      var p := profiles[userId];
      var nickCheck := ValidateNicknameChange(profiles, p, dto.nickName, today);
      if nickCheck.Some? then Err(nickCheck.value)
      else if dto.phoneNumber.Some? && dto.phoneNumber.value != p.phoneNumber
              && ValidatePhoneNumber(profiles, dto.phoneNumber.value).Some? then
        Err(ValidatePhoneNumber(profiles, dto.phoneNumber.value).value)
      else
        var q := EditedProfile(p, dto, imageUrl, today);
        if ClashesWithOthers(profiles, userId, q) then Err(Internal) else Ok(q)
  }

  /** Resubmitting one's own phone number is never reported as a duplicate. */
  lemma OwnPhoneIsNotADuplicate(profiles: map<UserId, Profile>, userId: UserId, dto: EditProfileDto,
                                imageUrl: Option<string>, today: int)
    requires ProfilesWellFormed(profiles) && userId in profiles
    requires dto.phoneNumber == Some(profiles[userId].phoneNumber)
    requires dto.nickName == Some(profiles[userId].nickName)
    ensures EditOutcome(profiles, userId, dto, imageUrl, today).Ok?
  {
    var p := profiles[userId];
    var q := EditedProfile(p, dto, imageUrl, today);
    assert q.phoneNumber == p.phoneNumber && q.nickName == p.nickName;
  }

  /**
   * The cooldown: after a nickname change on day t, any other nickname is
   * refused on every day before t + 60, and the cooldown check passes from
   * day t + 60 on.
   */
  lemma {:induction false} NicknameCooldownIsSixtyDays(profiles: map<UserId, Profile>, p: Profile, dto: EditProfileDto,
                                                       imageUrl: Option<string>, t: int, today: int, other: string)
    requires dto.nickName.Some? && dto.nickName.value != p.nickName
    requires other != dto.nickName.value
    ensures var q := EditedProfile(p, dto, imageUrl, t);
            && (today < t + 2 * NICKNAME_COOLDOWN_DAYS ==>
                  ValidateNicknameChange(profiles, q, Some(other), today) == Some(Service(UserInvalidNicknameChange)))
            && (today >= t + 2 * NICKNAME_COOLDOWN_DAYS ==>
                  ValidateNicknameChange(profiles, q, Some(other), today) == ValidateNickname(profiles, other))
  {
    var q := EditedProfile(p, dto, imageUrl, t);
    assert q.nickName == dto.nickName.value;
  }

  /** While the stamp is fresh, an edit that leaves the nickname out is refused as a nickname change. */
  lemma AbsentNicknameDuringCooldownIsRefused(profiles: map<UserId, Profile>, userId: UserId, dto: EditProfileDto,
                                              imageUrl: Option<string>, today: int)
    requires userId in profiles && dto.nickName.None?
    requires profiles[userId].nickNameUpdatedAt.Some?
    requires today - profiles[userId].nickNameUpdatedAt.value < NICKNAME_COOLDOWN_DAYS
    ensures EditOutcome(profiles, userId, dto, imageUrl, today) == Err(Service(UserInvalidNicknameChange))
  {
  }

  /**
   * A first nickname change skips the uniqueness check, so a taken nickname
   * is only caught by the store's unique column, as an internal error rather
   * than a duplicate-nickname failure.
   */
  lemma FirstNicknameChangeToTakenName(profiles: map<UserId, Profile>, userId: UserId, other: UserId,
                                       dto: EditProfileDto, today: int)
    requires ProfilesWellFormed(profiles)
    requires userId in profiles && other in profiles && other != userId
    requires profiles[userId].nickNameUpdatedAt.None?
    requires dto == EmptyEdit.(nickName := Some(profiles[other].nickName))
    ensures EditOutcome(profiles, userId, dto, None, today) == Err(Internal)
  {
    var q := EditedProfile(profiles[userId], dto, None, today);
    assert profiles[other].nickName == q.nickName;
  }

  /** The edit outcome keeps the profile table's unique constraints. */
  lemma EditKeepsProfilesWellFormed(profiles: map<UserId, Profile>, userId: UserId, dto: EditProfileDto,
                                    imageUrl: Option<string>, today: int)
    requires ProfilesWellFormed(profiles)
    requires EditOutcome(profiles, userId, dto, imageUrl, today).Ok?
    ensures ProfilesWellFormed(profiles[userId := EditOutcome(profiles, userId, dto, imageUrl, today).value])
  {
  }

  // ---------------------------------------------------------------------
  // Liked sports

  /** The sports-type rows whose name is among `names`, in table order. */
  function Matching(sports: seq<SportRow>, names: seq<string>): (found: seq<SportRow>)
    ensures |found| <= |sports|
    ensures forall r | r in found :: r in sports && r.name in names
    ensures forall r | r in sports && r.name in names :: r in found
  {
    if sports == [] then []
    else if sports[0].name in names then [sports[0]] + Matching(sports[1..], names)
    else Matching(sports[1..], names)
  }

  /**
   * The empty favourite list passes validation and finds no sport, so the
   * length comparison succeeds and nothing is connected.
   */
  lemma EmptyFavoriteListFindsNothing(sports: seq<SportRow>)
    ensures ValidEditFavorite(EditFavoriteDto(Some([])))
    ensures Matching(sports, []) == []
  {
  }

  function NamesOf(rows: seq<SportRow>): (r: seq<string>)
    ensures |r| == |rows|
    ensures forall i | 0 <= i < |rows| :: r[i] == rows[i].name
  {
    if rows == [] then [] else [rows[0].name] + NamesOf(rows[1..])
  }

  /** A sequence has as many elements as distinct values exactly when it has no repeats. */
  lemma {:induction false} DistinctCount(s: seq<string>)
    ensures |set x | x in s| <= |s|
    ensures |set x | x in s| == |s| <==> NoDuplicates(s)
  {
    if s != [] {
      DistinctCount(s[1..]);
      var tail := set x | x in s[1..];
      assert (set x | x in s) == {s[0]} + tail;
      if s[0] in s[1..] {
        assert (set x | x in s) == tail;
        var k :| 0 <= k < |s[1..]| && s[1..][k] == s[0];
        assert s[0] == s[k + 1];
      } else {
        assert NoDuplicates(s) <==> NoDuplicates(s[1..]) by {
          if NoDuplicates(s[1..]) {
            forall i, j | 0 <= i < j < |s| ensures s[i] != s[j] {
              if i == 0 {
                assert s[j] == s[1..][j - 1];
              } else {
                assert s[i] == s[1..][i - 1] && s[j] == s[1..][j - 1];
              }
            }
          }
          if NoDuplicates(s) {
            forall i, j | 0 <= i < j < |s[1..]| ensures s[1..][i] != s[1..][j] {
              assert s[1..][i] == s[i + 1] && s[1..][j] == s[j + 1];
            }
          }
        }
      }
    }
  }

  /** Filtering a table whose names are unique keeps the names unique. */
  lemma {:induction false} MatchingNamesUnique(sports: seq<SportRow>, names: seq<string>)
    requires SportNamesUnique(sports)
    ensures NoDuplicates(NamesOf(Matching(sports, names)))
  {
    if sports != [] {
      assert SportNamesUnique(sports[1..]) by {
        forall i, j | 0 <= i < j < |sports[1..]| ensures sports[1..][i].name != sports[1..][j].name {
          assert sports[1..][i] == sports[i + 1] && sports[1..][j] == sports[j + 1];
        }
      }
      MatchingNamesUnique(sports[1..], names);
      if sports[0].name in names {
        var rest := NamesOf(Matching(sports[1..], names));
        var all := NamesOf(Matching(sports, names));
        assert all == [sports[0].name] + rest;
        forall k | 0 <= k < |rest| ensures rest[k] != sports[0].name {
          var row := Matching(sports[1..], names)[k];
          assert row in sports[1..];
          var m :| 0 <= m < |sports[1..]| && sports[1..][m] == row;
          assert row == sports[m + 1];
        }
      }
    }
  }

  function NameSet(names: seq<string>): set<string> {
    set n | n in names
  }

  /** The requested names that are names of sports in the table. */
  function KnownNames(sports: seq<SportRow>, names: seq<string>): set<string> {
    set n | n in names && HasSport(sports, n)
  }

  /** On a table with unique names, one row is found per distinct known name. */
  lemma FoundCountIsKnownCount(sports: seq<SportRow>, names: seq<string>)
    requires SportNamesUnique(sports)
    ensures |Matching(sports, names)| == |KnownNames(sports, names)|
  {
    var found := Matching(sports, names);
    var fnames := NamesOf(found);
    MatchingNamesUnique(sports, names);
    DistinctCount(fnames);
    var known := KnownNames(sports, names);
    forall x | x in fnames ensures x in known {
      var k :| 0 <= k < |fnames| && fnames[k] == x;
      assert found[k] in sports;
      var m :| 0 <= m < |sports| && sports[m] == found[k];
    }
    forall x | x in known ensures x in fnames {
      var m :| 0 <= m < |sports| && sports[m].name == x;
      assert sports[m] in found;
      var k :| 0 <= k < |found| && found[k] == sports[m];
      assert fnames[k] == x;
    }
    assert (set x | x in fnames) == known;
  }

  lemma SubsetOfSameSize(small: set<string>, big: set<string>)
    requires small <= big && |small| == |big|
    ensures small == big
  {
    var rest := big - small;
    assert big == small + rest && small * rest == {};
    assert |rest| == 0;
  }

  /**
   * The favourite update finds one row per requested name exactly when
   * every name is a known sport and no name is repeated.
   */
  lemma FoundAllExactly(sports: seq<SportRow>, names: seq<string>)
    requires SportNamesUnique(sports)
    ensures |Matching(sports, names)| == |names| <==>
              (forall n | n in names :: HasSport(sports, n)) && NoDuplicates(names)
  {
    FoundCountIsKnownCount(sports, names);
    DistinctCount(names);
    var known := KnownNames(sports, names);
    var requested := NameSet(names);
    assert known <= requested;
    if forall n | n in names :: HasSport(sports, n) {
      assert known == requested;
    }
    if |known| == |names| {
      SubsetCard(known, requested);
      SubsetOfSameSize(known, requested);
      forall n | n in names ensures HasSport(sports, n) {
        assert n in requested;
      }
    }
  }

  lemma SubsetCard(small: set<string>, big: set<string>)
    requires small <= big
    ensures |small| <= |big|
  {
    assert big == small + (big - small);
  }

  // ---------------------------------------------------------------------
  // Sign-up and sign-in

  /** A sign-up request: by e-mail and password, or by an external account id. */
  datatype SignUp = ByEmail(dto: SignUpUserDto) | ByKakao(kakao: SignUpKakaoUserDto)

  /** The tier rows with the beginner value, as the keys a new user is connected to. */
  function BeginnerTiers(tierRows: seq<TierRow>): (ks: set<TierKey>)
    ensures forall k | k in ks :: k.value == Beginner && HasTier(tierRows, Beginner, k.sportsTypeId)
    ensures forall s | HasTier(tierRows, Beginner, s) :: TierKey(Beginner, s) in ks
  {
    var ks := set i | 0 <= i < |tierRows| && tierRows[i].value == Beginner :: TierKey(Beginner, tierRows[i].sportsTypeId);
    assert forall s | HasTier(tierRows, Beginner, s) :: TierKey(Beginner, s) in ks by {
      forall s | HasTier(tierRows, Beginner, s) ensures TierKey(Beginner, s) in ks {
        var i :| 0 <= i < |tierRows| && tierRows[i].value == Beginner && tierRows[i].sportsTypeId == s;
      }
    }
    ks
  }

  /** Once the tier seed has run, a new user starts at beginner in every sport of the table. */
  lemma SeededTablesGiveBeginnerEverywhere(sports: seq<SportRow>, tierRows: seq<TierRow>)
    requires TiersComplete(sports, tierRows)
    ensures forall i | 0 <= i < |sports| :: TierKey(Beginner, sports[i].id) in BeginnerTiers(tierRows)
  {
    assert Beginner in TIER_VALUES by { assert TIER_VALUES[0] == Beginner; }
    forall i | 0 <= i < |sports| ensures HasTier(tierRows, Beginner, sports[i].id) {
    }
  }

  /** The key of the sign-up upsert: the external account's id, or a fresh one. */
  function SignUpId(request: SignUp, freshId: UserId): UserId {
    if request.ByKakao? then request.kakao.id else freshId
  }

  /**
   * The outcome of a sign-up, an upsert on the id with an empty update: a
   * known id gives the stored user and changes nothing; a taken e-mail is
   * refused by the unique column; otherwise the new row is stored. An
   * external-account sign-up writes only its id, so its row has no e-mail.
   */
  function SignUpOutcome(users: map<UserId, User>, request: SignUp, freshId: UserId, hash: string -> string,
                         tierRows: seq<TierRow>): (out: (Result<User>, map<UserId, User>))
    ensures out.0.Ok? ==> out.1 == users[SignUpId(request, freshId) := out.0.value]
    ensures out.0.Err? ==> out.1 == users
    ensures UsersWellFormed(users) ==> UsersWellFormed(out.1)
  {
    var id := SignUpId(request, freshId);
    if id in users then
      assert users[id := users[id]] == users;
      (Ok(users[id]), users)
    else if request.ByEmail? && EmailTaken(users, request.dto.email) then (Err(Internal), users)
    else
      var created := match request
        case ByKakao(_) => User(id, None, None, BeginnerTiers(tierRows), {})
        case ByEmail(d) => User(id, Some(d.email), Some(hash(d.password)), BeginnerTiers(tierRows), {});
      (Ok(created), users[id := created])
  }

  /**
   * The external-account body carries the placeholder e-mail, but only its
   * id is written: the new user has neither e-mail nor password, and a
   * second sign-up with the same id returns that user and changes nothing.
   */
  lemma KakaoSignUpStoresNoEmail(users: map<UserId, User>, id: UserId, freshId: UserId, hash: string -> string,
                                 tierRows: seq<TierRow>)
    requires id !in users
    ensures NewSignUpKakaoUserDto(id).email == KAKAO_EMAIL
    ensures var (r, after) := SignUpOutcome(users, ByKakao(NewSignUpKakaoUserDto(id)), freshId, hash, tierRows);
            && r == Ok(User(id, None, None, BeginnerTiers(tierRows), {}))
            && after == users[id := r.value]
            && SignUpOutcome(after, ByKakao(NewSignUpKakaoUserDto(id)), freshId, hash, tierRows) == (r, after)
  {
  }

  /**
   * When the sports seed sends nothing, a fresh database has no sports, the
   * tier seed finds the empty tables already complete and adds no row, and a
   * new user is connected to no tier at all.
   */
  lemma EmptySeedGivesNoTiers()
    ensures TiersComplete([], [])
    ensures BeginnerTiers([]) == {}
  {
  }

  // ---------------------------------------------------------------------
  // Selectors over the match table and the rating ledger

  predicate PlayedBefore(m: Match, userId: UserId, now: int) {
    userId in m.participants && m.fields.matchDay < now
  }

  /** The match the user took part in with the latest match day strictly before now, if any. */
  function LatestMatchBefore(rows: seq<Match>, userId: UserId, now: int): (r: Option<Match>)
    ensures r.Some? ==> r.value in rows && PlayedBefore(r.value, userId, now)
    ensures r.Some? ==> forall m | m in rows && PlayedBefore(m, userId, now) :: m.fields.matchDay <= r.value.fields.matchDay
    ensures r.None? <==> forall m | m in rows :: !PlayedBefore(m, userId, now)
  {
    if rows == [] then None
    else
      var rest := LatestMatchBefore(rows[1..], userId, now);
      if !PlayedBefore(rows[0], userId, now) then rest
      else if rest.Some? && rest.value.fields.matchDay > rows[0].fields.matchDay then rest
      else Some(rows[0])
  }

  /** Whether the user has rated anyone in that match. */
  function HasUserRated(ledger: seq<Rating>, userId: UserId, latestMatch: Match): (r: bool)
    ensures r <==> exists i | 0 <= i < |ledger| :: ledger[i].raterId == userId && ledger[i].matchId == latestMatch.id
  {
    if ledger == [] then false
    else if ledger[0].raterId == userId && ledger[0].matchId == latestMatch.id then true
    else
      var rest := HasUserRated(ledger[1..], userId, latestMatch);
      assert rest ==> exists i | 0 <= i < |ledger| :: ledger[i].raterId == userId && ledger[i].matchId == latestMatch.id by {
        if rest {
          var i :| 0 <= i < |ledger[1..]| && ledger[1..][i].raterId == userId && ledger[1..][i].matchId == latestMatch.id;
          assert ledger[i + 1] == ledger[1..][i];
        }
      }
      rest
  }

  /** A rating the user received, as the selector returns it: the score and who gave it. */
  datatype RateEntry = RateEntry(value: int, raterId: UserId)

  /** The ratings the user received in that match, in ledger order. */
  function UserMatchRates(ledger: seq<Rating>, userId: UserId, matchId: MatchId): (r: seq<RateEntry>)
    ensures |r| <= |ledger|
    ensures forall e | e in r :: exists g | g in ledger :: g.userId == userId && g.matchId == matchId
                                                         && e == RateEntry(g.value, g.raterId)
    ensures forall g | g in ledger && g.userId == userId && g.matchId == matchId :: RateEntry(g.value, g.raterId) in r
  {
    if ledger == [] then []
    else
      var rest := UserMatchRates(ledger[1..], userId, matchId);
      assert forall g | g in ledger[1..] :: g in ledger;
      assert forall g | g in ledger :: g == ledger[0] || g in ledger[1..];
      if ledger[0].userId == userId && ledger[0].matchId == matchId then
        [RateEntry(ledger[0].value, ledger[0].raterId)] + rest
      else rest
  }

  // ---------------------------------------------------------------------
  // The tables

  class UserStore {
    var users: map<UserId, User>
    var profiles: map<UserId, Profile>

    ghost predicate Valid()
      reads this
    {
      UsersWellFormed(users) && ProfilesWellFormed(profiles)
    }

    constructor ()
      ensures Valid() && users == map[] && profiles == map[]
    {
      users, profiles := map[], map[];
    }

    /** The user's profile, or ProfileNotFound. */
    function FindProfileByUserId(userId: UserId): (r: Result<Profile>)
      reads this
      ensures r.Ok? <==> userId in profiles
      ensures r.Ok? ==> r.value == profiles[userId]
      ensures r.Err? ==> r.error == Service(UserProfileNotFound)
    {
      if userId in profiles then Ok(profiles[userId]) else Err(Service(UserProfileNotFound))
    }

    /**
     * Creates the user's profile after `ValidateProfile`; the image URL is
     * the upload's result, if any. A profile for an unknown user breaks the
     * store's foreign key.
     */
    method CreateProfile(userId: UserId, dto: CreateProfileDto, imageUrl: Option<string>) returns (r: Result<Profile>)
      requires Valid() && ValidCreateProfile(dto)
      modifies this
      ensures Valid() && users == old(users)
      ensures ValidateProfile(old(profiles), userId, dto).Some? ==>
                r == Err(ValidateProfile(old(profiles), userId, dto).value)
      ensures ValidateProfile(old(profiles), userId, dto).None? && userId !in users ==> r == Err(Internal)
      ensures r.Ok? <==> ValidateProfile(old(profiles), userId, dto).None? && userId in users
      ensures r.Ok? ==> r.value == Profile(userId, dto.gender, dto.phoneNumber, dto.bankName, dto.accountNumber,
                                           dto.nickName, dto.oneLiner, imageUrl, None)
      ensures r.Ok? ==> profiles == old(profiles)[userId := r.value]
      ensures r.Err? ==> profiles == old(profiles)
    {
      var check := ValidateProfile(profiles, userId, dto);
      if check.Some? {
        return Err(check.value);
      }
      if userId !in users {
        return Err(Internal);
      }
      var profile := Profile(userId, dto.gender, dto.phoneNumber, dto.bankName, dto.accountNumber,
                             dto.nickName, dto.oneLiner, imageUrl, None);
      profiles := profiles[userId := profile];
      r := Ok(profile);
    }

    /** Edits the user's profile; the outcome is `EditOutcome` on the table as it was. */
    method EditProfile(userId: UserId, dto: EditProfileDto, imageUrl: Option<string>, today: int) returns (r: Result<Profile>)
      requires Valid() && ValidEditProfile(dto)
      modifies this
      ensures Valid() && users == old(users)
      ensures r == EditOutcome(old(profiles), userId, dto, imageUrl, today)
      ensures r.Ok? ==> profiles == old(profiles)[userId := r.value]
      ensures r.Err? ==> profiles == old(profiles)
    {
      var found := FindProfileByUserId(userId);
      if found.Err? {
        return Err(found.error);
      }
      var existing := found.value;
      var nickCheck := ValidateNicknameChange(profiles, existing, dto.nickName, today);
      if nickCheck.Some? {
        return Err(nickCheck.value);
      }
      if dto.phoneNumber.Some? && dto.phoneNumber.value != existing.phoneNumber {
        var phoneCheck := ValidatePhoneNumber(profiles, dto.phoneNumber.value);
        if phoneCheck.Some? {
          return Err(phoneCheck.value);
        }
      }
      var edited := EditedProfile(existing, dto, imageUrl, today);
      if ClashesWithOthers(profiles, userId, edited) {
        return Err(Internal);
      }
      assert EditOutcome(profiles, userId, dto, imageUrl, today) == Ok(edited);
      EditKeepsProfilesWellFormed(profiles, userId, dto, imageUrl, today);
      profiles := profiles[userId := edited];
      r := Ok(edited);
    }

    /** The sports lookup: the rows whose name is requested, in table order. */
    static method FindSports(names: seq<string>, sports: seq<SportRow>) returns (found: seq<SportRow>)
      ensures found == Matching(sports, names)
    {
      found := [];
      var i := 0;
      while i < |sports|
        invariant 0 <= i <= |sports|
        invariant found == Matching(sports[..i], names)
      {
        MatchingAppend(sports[..i], sports[i], names);
        assert sports[..i + 1] == sports[..i] + [sports[i]];
        if sports[i].name in names {
          found := found + [sports[i]];
        }
        i := i + 1;
      }
      assert sports[..|sports|] == sports;
    }

    /**
     * Adds the named sports to the user's liked sports. The lookup must find
     * one row per requested name, otherwise SportTypeNotFound; updating an
     * unknown user is an internal error.
     */
    method EditUserFavorite(userId: UserId, names: seq<string>, sports: seq<SportRow>) returns (r: Result<seq<SportRow>>)
      requires Valid() && SportNamesUnique(sports)
      modifies this
      ensures Valid() && profiles == old(profiles)
      ensures (exists n | n in names :: !HasSport(sports, n)) || !NoDuplicates(names) ==>
                r == Err(Service(SportTypeNotFound))
      ensures r.Ok? <==> (forall n | n in names :: HasSport(sports, n)) && NoDuplicates(names) && userId in old(users)
      ensures r.Ok? ==> r.value == Matching(sports, names)
      ensures r.Ok? ==> users == old(users)[userId := old(users)[userId].(
                likedSportsTypes := old(users)[userId].likedSportsTypes + set row | row in r.value :: row.id)]
      ensures r.Err? ==> users == old(users)
    {
      var found := FindSports(names, sports);
      FoundAllExactly(sports, names);
      if |found| != |names| {
        return Err(Service(SportTypeNotFound));
      }
      if userId !in users {
        return Err(Internal);
      }
      var u := users[userId];
      users := users[userId := u.(likedSportsTypes := u.likedSportsTypes + set row | row in found :: row.id)];
      r := Ok(found);
    }

    /**
     * Sign-up as an upsert on the id with an empty update: an existing user
     * is returned unchanged; a new one gets the beginner tier of every sport
     * that has one and no liked sports. An e-mail sign-up takes a fresh id and
     * the hash of its password; an external sign-up keeps its id and has no
     * e-mail or password. A new row whose e-mail is taken breaks the unique
     * e-mail column.
     */
    method CreateUser(request: SignUp, freshId: UserId, hash: string -> string, tierRows: seq<TierRow>) returns (r: Result<User>)
      requires Valid()
      modifies this
      ensures Valid() && profiles == old(profiles)
      ensures (r, users) == SignUpOutcome(old(users), request, freshId, hash, tierRows)
      ensures var id := if request.ByKakao? then request.kakao.id else freshId;
              && (id in old(users) ==> r == Ok(old(users)[id]) && users == old(users))
              && (id !in old(users) && request.ByEmail? && EmailTaken(old(users), request.dto.email) ==>
                    r == Err(Internal) && users == old(users))
              && (r.Ok? && id !in old(users) ==>
                    && r.value.id == id
                    && r.value.tiers == BeginnerTiers(tierRows)
                    && r.value.likedSportsTypes == {}
                    && (request.ByKakao? ==> r.value.email.None? && r.value.encryptedPassword.None?)
                    && (request.ByEmail? ==> r.value.email == Some(request.dto.email)
                                             && r.value.encryptedPassword == Some(hash(request.dto.password)))
                    && users == old(users)[id := r.value])
              && (id !in old(users) && !(request.ByEmail? && EmailTaken(old(users), request.dto.email)) ==> r.Ok?)
    {
      var beginners := BeginnerTiers(tierRows);
      var id, email, password;
      match request {
        case ByKakao(k) =>
          id, email, password := k.id, None, None;
        case ByEmail(d) =>
          id, email, password := freshId, Some(d.email), Some(hash(d.password));
      }
      if id in users {
        return Ok(users[id]);
      }
      if email.Some? && EmailTaken(users, email.value) {
        return Err(Internal);
      }
      var created := User(id, email, password, beginners, {});
      users := users[id := created];
      r := Ok(created);
    }

    /**
     * Sign-in: the user with that e-mail whose stored hash matches the
     * password, otherwise Unauthorized. Nothing changes.
     */
    method FindUsersCredential(dto: SignInUserDto, passwordMatches: (string, string) -> bool) returns (r: Result<User>)
      requires Valid()
      ensures r.Ok? <==> exists u | u in users :: users[u].email == Some(dto.email)
                                                  && passwordMatches(dto.password, users[u].encryptedPassword.value)
      ensures r.Ok? ==> r.value in users.Values && r.value.email == Some(dto.email)
      ensures r.Err? ==> r.error == Service(UserUnauthorized)
    {
      if !EmailTaken(users, dto.email) {
        return Err(Service(UserUnauthorized));
      }
      var u :| u in users && users[u].email == Some(dto.email);
      var found := users[u];
      if !passwordMatches(dto.password, found.encryptedPassword.value) {
        return Err(Service(UserUnauthorized));
      }
      r := Ok(found);
    }
  }

  lemma {:induction false} MatchingAppend(sports: seq<SportRow>, row: SportRow, names: seq<string>)
    ensures Matching(sports + [row], names) == Matching(sports, names) + (if row.name in names then [row] else [])
  {
    if sports != [] {
      assert (sports + [row])[1..] == sports[1..] + [row];
      MatchingAppend(sports[1..], row, names);
    }
  }
}
